=== FILE: README.md ===
# fzy scorer and tracked ranked list, in Dafny

This project models the two C components of telescope.nvim's native sorter.

**The fzy scorer** (`src/fzy/match.c`):
- `has_match` is the subsequence pre-filter.
- `setup_match_struct` and `precompute_bonus` prepare the case-folded strings and the positional bonus table.
- `match_row` computes one row of the D/M alignment recurrence.
- `match` scores with two rolling rows.
- `match_positions` keeps the full matrices and backtraces one haystack position per needle character.

**The tracked ranked list** (`src/telescope.c`): a doubly linked list of `int` items with a counter `len`, a target rank `track_at`, and a pointer `_tracked_node` meant to point at the node of 1-based rank `track_at`. Its operations are `fzf_list_create`, `fzf_list_append`, `fzf_list_prepend`, `fzf_list_place_after` and `fzf_list_place_before`.

The model has these modules:
- `Scores`: scores are exact integers in thousandths (`SCORE_GAP_LEADING` is -5, `SCORE_MATCH_CONSECUTIVE` is 1000). `SCORE_MIN`, which is `-INFINITY`, becomes `NegInf`.
- `Chars`: ASCII `tolower`/`toupper`.
- `Subsequence`: embeddings of a needle in a haystack, under an exact or an accept-set character relation.
- `FzyRecurrence`: the reference recurrence `D`/`M` defined cell by cell, the per-row and whole-matrix predicates, and the backtrace's choice rule `ChosenAt`. The rule is stated for either consecutive test (`ConsecutiveTest`): comparing `M[i][j]`, as the code does, or `D[i][j]`.
- `FzyMatch`: the C functions, as methods with loops over `seq`. `COMPUTE_BONUS` is a function parameter `bonus: (char, char) -> int`.
- `FzyOptimality`: the score of an alignment, and the proof that every D and M cell, and so the final score, is the best score over its alignments. It also shows that the backtrace as written can miss the best alignment, and that the corrected test always finds one.
- `FzyTheory`: what the score means. It is finite exactly when the folded needle is a subsequence of the folded haystack. The module also states when `has_match` agrees with the score.
- `RankedList`: the list as a sequence of items plus a cursor index.
- `LinkedList`: the pointer-level list in an arena of nodes, with `Option<nat>` for pointers. Each operation performs the C stores in their source order.
- `ListRefinement`: proves that each arena operation implements its sequence counterpart. Both crash the same way, or both succeed with lists that correspond. It also restates the cursor invariant on pointers.

A crash of the C code is a `Fault` result. A NULL dereference is `NullDereference`, and a failed `assert` is `AssertionFailure`.

## Model

| member | source | states |
|---|---|---|
| Scores.Add | src/fzy/match.c:98-110 | adding a penalty or bonus keeps `SCORE_MIN` at `SCORE_MIN`, and shifts a finite score by exactly that amount |
| Scores.Max | src/fzy/match.c:32 | the `max` of two scores is one of them, is at least both, and is finite iff either is |
| Chars.ToLower | src/fzy/match.c:69-73 | `tolower` maps an ASCII upper-case letter to its lower-case letter (code + 32) and leaves every other character alone |
| Chars.ToUpper | src/fzy/match.c:20 | `toupper` maps an ASCII lower-case letter to its upper-case letter (code - 32) and leaves every other character alone |
| Chars.ToLowerMatchesLowerNeedle | src/fzy/match.c:20 | for a needle character that is not upper case, lower-casing a haystack character gives it exactly when the character is it or its upper-case form. This is the accept set `{nch, toupper(nch)}` |
| Subsequence.EmbeddingIsAboveDiagonal | src/fzy/match.c:17-25 | in any in-order placement of needle characters, the k-th lands at haystack position k or later |
| Subsequence.EmbedsNeedsRoom | src/fzy/match.c:61 | a needle that embeds in a haystack is no longer than it, so the `n > m` bail-out never rejects a real match |
| FzyMatch.FindFirst | src/fzy/match.c:20-22 | `strpbrk` with the accept set returns the first haystack position that holds an accepted character, or none when no position does |
| FzyMatch.HasMatch | src/fzy/match.c:16-28 | the empty needle always passes the pre-filter, and a needle that passes is never longer than the haystack |
| FzyTheory.HasMatchIffEmbeds | src/fzy/match.c:16-28 | `has_match` (`FzyMatch.HasMatch`) is true exactly when every needle character can be placed, in order and at strictly increasing positions, on a haystack character of its accept set |
| FzyMatch.PrecomputeBonus | src/fzy/match.c:47-55 | the bonus of position 0 is computed after a virtual `/`; the bonus of every later position is computed from the character before it |
| FzyMatch.LowerCopy | src/fzy/match.c:69-73 | the lower-case buffer has the string's length and holds `tolower` of each character |
| FzyMatch.SetupMatch | src/fzy/match.c:57-80 | nothing is prepared exactly when the haystack exceeds `MATCH_MAX_LEN` or the needle is longer than the haystack; otherwise the result is the prepared pair: folded strings, or the originals when case-sensitive, plus the bonus table of the unfolded haystack |
| FzyMatch.MatchRow | src/fzy/match.c:82-113 | every D cell of the row is `SCORE_MIN` off a character match; on a match it is the leading-gap score on row 0 and the better of the bonus and consecutive extensions below it. Every M cell is the better of D and the left M cell plus the trailing or inner gap |
| FzyRecurrence.RowIsReference | src/fzy/match.c:155-160 | a row computed by the recurrence from the reference row above it is the reference row, so rolling two rows computes the full matrix |
| FzyMatch.RollRows | src/fzy/match.c:141-160 | rolling two rows, each computed from the previous one only, ends with the last reference row |
| FzyMatch.Match | src/fzy/match.c:115-163 | an empty needle, an over-long haystack or a needle longer than the haystack scores `SCORE_MIN`; otherwise the score is the last-row, last-column M cell of the reference recurrence |
| FzyRecurrence.DFiniteIsMatch | src/fzy/match.c:95-106 | a finite D cell sits on equal needle and haystack characters, and below row 0 it is not in column 0 |
| FzyRecurrence.NoMatchInLastRow | src/fzy/match.c:107-110 | when the final M cell is `SCORE_MIN`, no cell of the last row ends a match |
| FzyTheory.MFiniteIff | src/fzy/match.c:94-112 | an M cell is finite exactly when needle[0..i] is a subsequence of haystack[0..j] |
| FzyTheory.DFiniteIff | src/fzy/match.c:95-106 | a D cell is finite exactly when needle[0..i] embeds in haystack[0..j] with needle[i] placed on haystack[j] |
| FzyTheory.ScoreFiniteIffSubsequence | src/fzy/match.c:115-163 | the score is finite exactly when the needle is non-empty, the haystack is within `MATCH_MAX_LEN`, and the folded needle is a subsequence of the folded haystack |
| FzyOptimality.DBound | src/fzy/match.c:141-142 | no alignment that places the last needle character of the prefix at haystack position j scores above the D cell at j. An alignment scores as follows: leading gaps before the first match plus its bonus; for each next match, the larger of its bonus and the consecutive bonus when it is adjacent, else its bonus plus an inner-gap penalty per skipped position |
| FzyOptimality.MBound | src/fzy/match.c:141-143 | no alignment of the needle prefix inside haystack[0..j] scores above the M cell, counting one gap penalty (trailing on the last row, inner elsewhere) per position after its last match |
| FzyOptimality.DAttained | src/fzy/match.c:95-106 | a finite D cell is the score of some alignment ending at that column |
| FzyOptimality.MAttained | src/fzy/match.c:107-110 | a finite M cell is the score of some alignment inside that haystack prefix |
| FzyOptimality.ScoreIsBestAlignment | src/fzy/match.c:141-162 | the score of `match` and `match_positions` is at least the score of every alignment of the whole compared needle inside the whole compared haystack, and when finite it equals the score of one of them |
| FzyOptimality.GapRun | src/fzy/match.c:107-110 | when no column after p on a row qualifies for a free scan, the M cell at s is the M cell at p plus one gap penalty per column in between |
| FzyOptimality.CorrectedStep | src/fzy/match.c:234-236 | with the test on D, if the pick of row i-1 scores its D cell as an alignment, so does the pick of row i |
| FzyOptimality.CorrectedPickScore | src/fzy/match.c:215-242 | with the test on D, the picks of rows 0..i form an alignment whose score is the D cell of row i's pick |
| FzyOptimality.CorrectedBacktraceIsOptimal | src/fzy/match.c:215-242 | with the test on D, a completed backtrace aligns the whole needle, its alignment scores exactly the final M cell, and no alignment scores more |
| FzyOptimality.BacktraceCounterexample | src/fzy/match.c:234-236 | "abc" in "ababc", case-sensitive, with a bonus of 900 after `/` only, scores 1990. The backtrace as written picks [0, 3, 4], whose alignment scores 1880, while [2, 3, 4] scores 1990 |
| FzyOptimality.CorrectedBacktraceOnCounterexample | src/fzy/match.c:234-236 | on the same input, the backtrace testing D picks the optimal [2, 3, 4] |
| FzyTheory.AcceptAgreesWithFolding | src/fzy/match.c:20 | when the search is case-sensitive or the needle has no upper-case letter, a placement accepted by `has_match` is the same as a placement the folded comparison of `match` accepts |
| FzyTheory.HasMatchAgreesWithScore | src/fzy/match.c:16-28 | under that condition, a candidate rejected by `has_match` scores `SCORE_MIN`, and one it accepts scores finitely when the needle is non-empty and the haystack is not over-long |
| FzyTheory.UpperCaseNeedleEscapesPrefilter | src/fzy/match.c:20 | without that condition they disagree: `has_match("A", "a")`, case-insensitive, is false, yet `match` scores the pair finitely |
| FzyRecurrence.ScanStep | src/fzy/match.c:219-229 | a non-qualifying column of a reachable row was reached through a gap, so the scan can move left and stay reachable |
| FzyRecurrence.BacktraceStep | src/fzy/match.c:234-237 | after a pick on row i > 0, row i-1 is still reachable one column to the left. A pick the test marks as made through the consecutive bonus (under either test) forces a match there |
| FzyRecurrence.ChosenAtDependsOnTwoEntries | src/fzy/match.c:218-241 | whether a row's pick is the backtrace's choice depends only on that pick and the pick of the row above |
| FzyRecurrence.ChosenAtUnique | src/fzy/match.c:218-241 | the choice rule determines the backtrace: two position sequences that are chosen on every row from k up agree on those rows |
| FzyRecurrence.PickIsChosen | src/fzy/match.c:229-237 | recording the rightmost qualifying column of row i keeps the rows above chosen and makes row i chosen. The next scan starts one column left, with `match_required` set exactly when the test holds, and its start cell is reachable |
| FzyMatch.ScanRow | src/fzy/match.c:219-240 | the inner scan returns the rightmost qualifying column at or left of its start: D finite, and either a match is required or D equals M. It finds one whenever the start cell is reachable |
| FzyMatch.BacktraceRow | src/fzy/match.c:218-240 | one pass of the outer loop keeps the backtrace's state: rows above hold chosen picks, the next scan starts at a reachable cell, and nothing is written under a `SCORE_MIN` score |
| FzyMatch.Backtrace | src/fzy/match.c:215-242 | when the score is finite, every row's entry is the rightmost qualifying column left of the row above's entry. With a `SCORE_MIN` score the buffer is untouched, and entries past the needle are never written |
| FzyMatch.FillMatrices | src/fzy/match.c:198-213 | the forward pass of `match_positions` keeps every row, and the rows are the reference D and M matrices |
| FzyRecurrence.ChosenPositionsAreMatches | src/fzy/match.c:215-241 | the backtrace's picks lie inside the haystack, on finite D cells, on characters equal to their needle characters, at strictly increasing positions |
| FzyMatch.MatchPositions | src/fzy/match.c:165-250 | the score is that of `match`, with the same bail-outs. With a positions buffer and a finite score, entry k is the backtrace's choice for needle character k under the test on `M[i][j]` (one choice only, by `FzyRecurrence.ChosenAtUnique`), inside the haystack and on an equal folded character. The entries strictly increase, and the buffer beyond the needle is untouched. A NULL buffer stays NULL |
| FzyMatch.MatchPositionsCorrected | src/fzy/match.c:165-250 | `match_positions` with the test on D: the same score and bail-outs. On a finite score with a buffer, the positions are the corrected backtrace's choices, they form an alignment of the whole needle scoring exactly the returned score, and no alignment scores more |
| RankedList.Create | src/telescope.c:16-25 | a new list is empty, keeps its `track_at`, and has no tracked node, which satisfies the cursor invariant |
| RankedList.Append | src/telescope.c:40-59 | the item goes to the end of the sequence, and the cursor invariant (tracked node = rank `track_at`) is preserved |
| RankedList.Prepend | src/telescope.c:61-79 | the item goes to the front; with the cursor invariant, the call crashes exactly when `track_at` is 0, and otherwise preserves the invariant |
| RankedList.PlaceAfter | src/telescope.c:81-114 | the item is inserted right after the given node; called with `index` the new node's 1-based rank, it never crashes and preserves the cursor invariant |
| RankedList.PlaceBefore | src/telescope.c:116-148 | the item is inserted right before the given node; called with `index` the new node's rank, the cursor invariant is preserved whenever that rank is not `track_at` |
| RankedList.PlaceBeforeLosesCursor | src/telescope.c:139-147 | for every list that keeps the cursor invariant, place-before called with the new node's rank does not crash, and it breaks the invariant exactly when that rank is `track_at`. The cursor is then left on `node`, at rank `track_at + 1` |
| RankedList.PlaceBeforeZeroBasedIndexAlsoFails | src/telescope.c:139-147 | with the other natural convention, `index` the new node's 0-based index, place-before also breaks the cursor invariant whenever the new node lands on rank `track_at` |
| RankedList.PlaceBeforeCounterexample | src/telescope.c:139-140 | a list created with `track_at` 1 holding [7], then `place_before(index 1, head, 9)`, gives [9, 7] with the cursor on 7, at rank 2 |
| RankedList.PlaceBeforeFixed | src/telescope.c:105-106 | place-before with the cursor rule of place-after makes the new node tracked when it lands on rank `track_at`, and preserves the cursor invariant for every insertion |
| LinkedList.CreateNode | src/telescope.c:8-14 | a node is a fresh arena slot holding the item with NULL links |
| LinkedList.Create | src/telescope.c:16-25 | a new list has length 0, NULL head, tail and tracked pointers, and the given `track_at` |
| LinkedList.Append | src/telescope.c:40-59 | `len` grows by one, the new node holds the item and becomes the tail, the head moves only when the list was empty, and every pointer stays inside the arena |
| LinkedList.Prepend | src/telescope.c:61-79 | when it does not crash, `len` grows by one, the new node is the head, the tail moves only when the list was empty, and every pointer stays inside the arena |
| LinkedList.PlaceAfter | src/telescope.c:81-114 | the call fails its `assert` exactly when the node links to itself; otherwise the head is unchanged, the tail moves only when the node was the tail, and no pointer dangles |
| LinkedList.PlaceBefore | src/telescope.c:116-148 | the call fails its `assert` exactly when the node links to itself; otherwise the tail is unchanged, the head moves only when the node was the head, and no pointer dangles |
| LinkedList.PlaceBeforeFixed | src/telescope.c:116-138 | the same link updates as place-before, whose outcome the cursor rule does not change |
| ListRefinement.SpliceLinks | src/telescope.c:93-103 | linking a fresh node between two neighbours of a doubly linked list gives the doubly linked list of the inserted order |
| ListRefinement.SpliceItems | src/telescope.c:93-103 | read along the inserted order, the items are the old items with the new item inserted at the same index |
| ListRefinement.ShiftCursorRefines | src/telescope.c:74-78 | the pointer rule (tail when `len` reaches `track_at`, `_tracked_node->prev` past it) crashes exactly when the index rule does, and otherwise points at the node the index rule names |
| ListRefinement.CreateRefines | src/telescope.c:16-25 | the new pointer-level list corresponds to the empty sequence |
| ListRefinement.AppendRefines | src/telescope.c:40-59 | append on a corresponding list gives a corresponding list, with the new node last in the order and the item last in the sequence |
| ListRefinement.PrependRefines | src/telescope.c:61-79 | prepend on pointers crashes exactly as on the sequence, and otherwise corresponds to it, with the new node first |
| ListRefinement.PlaceAfterRefines | src/telescope.c:81-114 | place-after on pointers crashes exactly as on the sequence, and otherwise corresponds to it, with the new node right after the given one |
| ListRefinement.PlaceBeforeRefines | src/telescope.c:116-148 | place-before on pointers crashes exactly as on the sequence, and otherwise corresponds to it, with the new node right before the given one |
| ListRefinement.PlaceBeforeFixedRefines | src/telescope.c:116-138 | the corrected place-before on pointers corresponds to the corrected sequence operation |
| ListRefinement.AppendKeepsRank | src/telescope.c:53-56 | after append, `_tracked_node` is still the node of rank `track_at`, or NULL while the list is shorter |
| ListRefinement.PrependKeepsRank | src/telescope.c:74-78 | prepend crashes exactly when `track_at` is 0, and otherwise keeps `_tracked_node` on rank `track_at` |
| ListRefinement.PlaceAfterKeepsRank | src/telescope.c:105-113 | place-after, given the new node's rank, keeps `_tracked_node` on rank `track_at` |
| ListRefinement.PlaceBeforeKeepsRankIff | src/telescope.c:139-147 | place-before, given the new node's rank, keeps `_tracked_node` on rank `track_at` if and only if that rank is not `track_at` |
| ListRefinement.PlaceBeforeFixedKeepsRank | src/telescope.c:139-147 | the corrected place-before always keeps `_tracked_node` on rank `track_at` |
| ListRefinement.ArenaPlaceBeforeCounterexample | src/telescope.c:124-140 | on pointers: after create(1), append(7) and place_before(1, that node, 9), the new node is the head and links to the old one, yet `_tracked_node` still points at the old node, now second |

## Left out

- Memory: `malloc` and `free` are not modelled. Nodes live in an append-only arena, and allocation failure is not considered. `fzf_list_free` (src/telescope.c:27-38) only releases memory and has no model.
- Floating point: `score_t` is a C `double`. The model scores in exact integer thousandths, so the rounding of sums like -0.005 + 0.9 is not modelled. `SCORE_MIN` is the extended value `NegInf`. `SCORE_MAX` appears only in the commented-out code and is not modelled.
- Bonus: `COMPUTE_BONUS` comes from bonus.h, which is not part of this model. It is a parameter of every scorer member. The bonus constants `SCORE_MATCH_SLASH`, `_WORD`, `_CAPITAL` and `_DOT` are therefore unused, and the other UI settings in config.h are outside the core.
- Characters: the C scorer works on bytes. Each Dafny `char` stands for one byte of the C string, with a code from 1 to 255. So `strlen`, the `MATCH_MAX_LEN` limit, the positions and the case mappings all count or act per byte. A multi-byte UTF-8 character is given as its bytes, one `char` each. The model does not exclude `char` values above 255 or an interior NUL, which a C string cannot hold. Its promises about such inputs say nothing about the C code. `tolower`/`toupper` are the C locale's ASCII mappings, and signed-`char` effects are not modelled.
- The commented-out `n == m` shortcuts in `match` and `match_positions` (src/fzy/match.c:133-139 and 183-192) are dead code and are not modelled.
- Assertions: `AssertionFailure` models the `assert(node->prev != node)` and `assert(node->next != node)` checks (src/telescope.c:86-87 and 121-122) as always enabled. A build with `NDEBUG` would splice a self-linked node in instead. No proved property depends on this, because a list that corresponds to a sequence never meets the assertion (`ListRefinement.PlaceAfterRefines`, `ListRefinement.PlaceBeforeRefines`).
- On row 0, `match_row` never reads the previous rows, which `match_positions` leaves uninitialized. `FzyMatch.MatchRow` accepts any previous rows there.
- `FzyTheory.HasMatchAgreesWithScore`: `has_match` is the pre-filter in front of `match`, so a candidate it rejects is expected to score `SCORE_MIN`. The code breaks this when the search is case-insensitive and the needle has an upper-case letter. So the lemma assumes a case-sensitive search or a needle without upper-case letters, and `FzyTheory.UpperCaseNeedleEscapesPrefilter` shows the other case.
- `RankedList.HasRoom`, `LinkedList.HasRoom`: `++list->len` wrapping at `SIZE_MAX` is excluded by precondition. `list->track_at - 1` wrapping to `SIZE_MAX` in place-before is modelled (`RankedList.TrackAtMinusOne`).
- `RankedList.PlaceAfter`, `RankedList.PlaceBefore`: the caller that picks `index` and `node` (the Lua/FFI sorter) is not part of this model. The cursor guarantees are proved for the convention that `index` is the new node's 1-based rank. Under it, place-after is always correct. Place-before is correct only when that rank is not `track_at`, which is the defect recorded under "## Findings". Every other `index` is modelled but carries no guarantee. Likewise, `node` is assumed to be a member of the list.
- `FzyMatch.MatchPositions`: the positions are the backtrace's rightmost choices under the test as written. They are not always an optimal alignment (`FzyOptimality.BacktraceCounterexample`), so no alignment score is promised for them. `FzyMatch.MatchPositionsCorrected` carries that promise.
- Ordering: the lists never compare items. Keeping them sorted is the caller's job, so no sortedness property is stated.
- `scratch/files.py` is an unrelated helper script and is outside the core.

## Findings

| source | as written | input that shows it | evidently intended | confidence | as-written member | corrected member |
|---|---|---|---|---|---|---|
| src/telescope.c:139-147 | when the new node lands on rank `track_at` (`index == track_at`), neither cursor branch fires: `index` is neither `track_at - 1` nor below `track_at`. So `_tracked_node` stays on `node`, which the new node has pushed to rank `track_at + 1`. The `index == track_at - 1` branch itself is correct | `fzf_list_create(1)`, `fzf_list_append(list, 7)`, then `fzf_list_place_before(list, 1, head, 9)`: the list is [9, 7] but `_tracked_node` points at 7, rank 2 instead of rank 1 | like place-after, retarget when the new node lands on rank `track_at` (`index == track_at`), onto the new node | not executed | RankedList.PlaceBeforeLosesCursor, RankedList.PlaceBeforeCounterexample, RankedList.PlaceBeforeZeroBasedIndexAlsoFails | RankedList.PlaceBeforeFixed |
| src/fzy/match.c:234-236 | after picking column j on row i, `match_required` tests `M[i][j] == D[i-1][j-1] + SCORE_MATCH_CONSECUTIVE`. On a forced pick, D[i][j] can lie below M[i][j]. D[i][j] may then have come through the consecutive bonus while the test on M fails, so row i-1 is free to pick a column further left, and the positions no longer add up to the score | "abc" in "ababc", case-sensitive, with a bonus of 0.9 (`SCORE_MATCH_SLASH`) at position 0, after the virtual `/`, and 0 elsewhere: the score is 1.99. Row 1 is forced onto column 3, where D is 0.99 (through the consecutive bonus from column 2) but M is 1.88, so the test fails. The positions come out as [0, 3, 4], an alignment worth 1.88, while [2, 3, 4] is worth 1.99 | test `D[i][j]`, the score of the match just picked, so the positions form an alignment that scores exactly the returned score | not executed | FzyOptimality.BacktraceCounterexample | FzyOptimality.CorrectedBacktraceIsOptimal, FzyMatch.MatchPositionsCorrected |

=== FILE: chars.dfy ===
/**
 * Case mapping of the C library (`tolower`, `toupper`) restricted to the ASCII
 * letters; every other character maps to itself.
 */
module Chars {

  predicate IsUpper(c: char) {
    'A' <= c <= 'Z'
  }

  predicate IsLower(c: char) {
    'a' <= c <= 'z'
  }

  function ToLower(c: char): (r: char)
    ensures IsUpper(c) ==> IsLower(r) && r as int == c as int + 32
    ensures !IsUpper(c) ==> r == c
  {
    if IsUpper(c) then (c as int + 32) as char else c
  }

  function ToUpper(c: char): (r: char)
    ensures IsLower(c) ==> IsUpper(r) && r as int == c as int - 32
    ensures !IsLower(c) ==> r == c
  {
    if IsLower(c) then (c as int - 32) as char else c
  }

  /** Lower-casing a character is exactly undoing `ToUpper` on lower-case input. */
  lemma ToLowerMatchesLowerNeedle(nch: char, c: char)
    requires !IsUpper(nch)
    ensures ToLower(c) == nch <==> c == nch || c == ToUpper(nch)
  {
  }
}

=== FILE: fzy_match.dfy ===
/**
 * The fzy scorer (src/fzy/match.c): the subsequence pre-filter `has_match`,
 * the two-row scorer `match` and the full-matrix scorer `match_positions`
 * with its backtrace. C strings are `seq<char>` (their length is `strlen`).
 */
module FzyMatch {
  import opened Wrappers
  import opened Scores
  import opened Chars
  import opened Subsequence
  import opened FzyRecurrence
  import opened FzyOptimality

  // ---- has_match ----

  /** `strpbrk(haystack, accept)`: the first position holding a character of the
      accept set of `nch`. */
  function FindFirst(haystack: seq<char>, nch: char, caseSensitive: bool): (r: Option<nat>)
    ensures r.Some? ==> r.value < |haystack| && Related(Accept(caseSensitive), nch, haystack[r.value])
    ensures r.Some? ==> forall k :: 0 <= k < r.value ==> !Related(Accept(caseSensitive), nch, haystack[k])
    ensures r.None? ==> forall k :: 0 <= k < |haystack| ==> !Related(Accept(caseSensitive), nch, haystack[k])
    decreases |haystack|
  {
    if |haystack| == 0 then None
    else if Related(Accept(caseSensitive), nch, haystack[0]) then Some(0)
    else match FindFirst(haystack[1..], nch, caseSensitive)
      case None => None
      case Some(k) => Some(k + 1)
  }

  /** Each needle character is searched for strictly after the previous hit.
      The empty needle always passes, and a passing needle is never longer than
      the haystack, so the `n > m` bail-out of the scorer only drops candidates
      the pre-filter already rejected. */
  function HasMatch(needle: seq<char>, haystack: seq<char>, caseSensitive: bool): (r: bool)
    ensures |needle| == 0 ==> r
    ensures r ==> |needle| <= |haystack|
    decreases |needle|
  {
    if |needle| == 0 then true
    else match FindFirst(haystack, needle[0], caseSensitive)
      case None => false
      case Some(k) => HasMatch(needle[1..], haystack[k + 1..], caseSensitive)
  }

  // ---- setup_match_struct ----

  /** The bonus table: the bonus of position 0 is computed after a virtual '/',
      that of position j > 0 after haystack[j-1]. */
  method PrecomputeBonus(haystack: seq<char>, bonus: BonusFn) returns (matchBonus: seq<int>)
    ensures |matchBonus| == |haystack|
    ensures |haystack| > 0 ==> matchBonus[0] == bonus('/', haystack[0])
    ensures forall j :: 0 < j < |haystack| ==> matchBonus[j] == bonus(haystack[j - 1], haystack[j])
  {
    var lastCh := '/';
    matchBonus := [];
    var i := 0;
    while i < |haystack|
      invariant i <= |haystack| && |matchBonus| == i
      invariant lastCh == if i == 0 then '/' else haystack[i - 1]
      invariant forall j :: 0 <= j < i ==> matchBonus[j] == BonusAt(haystack, bonus, j)
    {
      var ch := haystack[i];
      matchBonus := matchBonus + [bonus(lastCh, ch)];
      lastCh := ch;
      i := i + 1;
    }
  }

  /** The lower-cased copy `setup_match_struct` makes of each string. */
  method LowerCopy(s: seq<char>) returns (r: seq<char>)
    ensures |r| == |s|
    ensures forall i :: 0 <= i < |s| ==> r[i] == ToLower(s[i])
  {
    r := [];
    var i := 0;
    while i < |s|
      invariant i <= |s| && |r| == i
      invariant forall k :: 0 <= k < i ==> r[k] == ToLower(s[k])
    {
      r := r + [ToLower(s[i])];
      i := i + 1;
    }
  }

  /** Nothing is prepared for an over-long haystack or a needle longer than the
      haystack; otherwise the compared strings are the folded copies and the
      bonus table is computed from the original haystack. */
  method SetupMatch(needle: seq<char>, haystack: seq<char>, caseSensitive: bool, bonus: BonusFn)
    returns (r: Option<MatchStruct>)
    ensures r.None? <==> |haystack| > MATCH_MAX_LEN || |needle| > |haystack|
    ensures r.Some? ==> r.value == Prepare(needle, haystack, caseSensitive, bonus)
  {
    if |haystack| > MATCH_MAX_LEN || |needle| > |haystack| {
      return None;
    }
    var n, h;
    if caseSensitive {
      n, h := needle, haystack;
    } else {
      n := LowerCopy(needle);
      h := LowerCopy(haystack);
    }
    var matchBonus := PrecomputeBonus(haystack, bonus);
    ghost var ms := Prepare(needle, haystack, caseSensitive, bonus);
    assert n == ms.needle;
    assert h == ms.haystack;
    assert matchBonus == ms.matchBonus by {
      forall j | 0 <= j < |haystack|
        ensures matchBonus[j] == ms.matchBonus[j]
      {
      }
    }
    r := Some(MatchStruct(n, h, matchBonus));
  }

  // ---- match_row ----

  /** One row of the alignment: every produced cell obeys the recurrence with
      respect to the given previous row (which is never read on row 0). */
  method MatchRow(ms: MatchStruct, row: nat, lastD: seq<Score>, lastM: seq<Score>)
    returns (currD: seq<Score>, currM: seq<Score>)
    requires WellFormed(ms) && row < |ms.needle|
    requires row > 0 ==> |lastD| == |ms.haystack| && |lastM| == |ms.haystack|
    ensures IsRow(ms, row, lastD, lastM, currD, currM)
  {
    var n := |ms.needle|;
    var m := |ms.haystack|;
    var i := row;
    var prevScore := NegInf;
    var gapScore := if i == n - 1 then SCORE_GAP_TRAILING else SCORE_GAP_INNER;
    currD, currM := [], [];
    var j := 0;
    while j < m
      invariant j <= m && |currD| == j && |currM| == j
      invariant prevScore == Left(currM, j)
      invariant forall k :: 0 <= k < j ==> currD[k] == CellD(ms, i, k, Diag(lastM, i, k), Diag(lastD, i, k))
      invariant forall k :: 0 <= k < j ==> currM[k] == CellM(currD[k], Left(currM, k), Gap(n, i))
    {
      if ms.needle[i] == ms.haystack[j] {
        var score := NegInf;
        if i == 0 {
          score := Fin(j * SCORE_GAP_LEADING + ms.matchBonus[j]);
        } else if j > 0 {
          score := Max(Add(lastM[j - 1], ms.matchBonus[j]),
                       // extending a run of matches earns the run bonus instead of the position bonus
                       Add(lastD[j - 1], SCORE_MATCH_CONSECUTIVE));
        }
        currD := currD + [score];
        prevScore := Max(score, Add(prevScore, gapScore));
        currM := currM + [prevScore];
      } else {
        currD := currD + [NegInf];
        prevScore := Add(prevScore, gapScore);
        currM := currM + [prevScore];
      }
      j := j + 1;
    }
  }

  // ---- match ----

  /** The score of the needle against the haystack, keeping only two rows. */
  method Match(needle: seq<char>, haystack: seq<char>, caseSensitive: bool, bonus: BonusFn)
    returns (score: Score)
    ensures |needle| == 0 || |haystack| > MATCH_MAX_LEN || |needle| > |haystack| ==> score == NegInf
    ensures score == ReferenceScore(needle, haystack, caseSensitive, bonus)
  {
    if |needle| == 0 {
      return NegInf;
    }
    var setup := SetupMatch(needle, haystack, caseSensitive, bonus);
    var n := |needle|;
    var m := |haystack|;
    if m > MATCH_MAX_LEN || n > m {
      // Over the length limit, or impossible to fit: the sentinel, never a crash.
      return NegInf;
    }
    var ms := setup.value;
    var lastD, lastM := RollRows(ms);
    score := lastM[m - 1];
  }

  /** The row loop of `match`: each row is computed from the previous one only,
      and the last row computed is the last reference row. */
  method RollRows(ms: MatchStruct) returns (lastD: seq<Score>, lastM: seq<Score>)
    requires WellFormed(ms) && 0 < |ms.needle|
    ensures IsReferenceRow(ms, |ms.needle| - 1, lastD, lastM)
  {
    var n := |ms.needle|;
    lastD, lastM := [], [];
    var i := 0;
    while i < n
      invariant i <= n
      invariant i > 0 ==> IsReferenceRow(ms, i - 1, lastD, lastM)
    {
      var currD, currM := MatchRow(ms, i, lastD, lastM);
      RowIsReference(ms, i, lastD, lastM, currD, currM);
      lastD, lastM := currD, currM;
      i := i + 1;
    }
  }

  // ---- match_positions ----

  /** The scan of one backtrace row, from column `start` leftwards: the first
      (so rightmost) qualifying column, or -1 when there is none. */
  method ScanRow(ms: MatchStruct, dm: seq<seq<Score>>, mm: seq<seq<Score>>, i: nat, start: int, matchRequired: bool)
    returns (col: int)
    requires WellFormed(ms) && IsReferenceMatrix(ms, dm, mm)
    requires i < |ms.needle| && -1 <= start < |ms.haystack|
    ensures -1 <= col <= start
    ensures col >= 0 ==> Qualifies(ms, i, col, matchRequired)
    ensures forall c :: col < c <= start ==> !Qualifies(ms, i, c, matchRequired)
    ensures 0 <= start && (if matchRequired then D(ms, i, start).Fin? else M(ms, i, start).Fin?) ==> col >= 0
  {
    ghost var reachable := 0 <= start && (if matchRequired then D(ms, i, start).Fin? else M(ms, i, start).Fin?);
    var j := start;
    while j >= 0
      invariant -1 <= j <= start
      invariant forall c :: j < c <= start ==> !Qualifies(ms, i, c, matchRequired)
      invariant reachable ==> j >= 0 && (if matchRequired then j == start && D(ms, i, j).Fin? else M(ms, i, j).Fin?)
    {
      if dm[i][j] != NegInf && (matchRequired || dm[i][j] == mm[i][j]) {
        return j;
      }
      if reachable && !matchRequired {
        ScanStep(ms, i, j);
      }
      j := j - 1;
    }
    return -1;
  }

  /** `match_required` after a pick at (i, col): the tested cell equals the
      diagonal D cell plus the consecutive-match bonus. */
  function ConsecutiveRequired(ms: MatchStruct, test: ConsecutiveTest, dm: seq<seq<Score>>, mm: seq<seq<Score>>,
                               i: nat, col: nat): (r: bool)
    requires WellFormed(ms) && IsReferenceMatrix(ms, dm, mm)
    requires i < |ms.needle| && col < |ms.haystack|
    ensures r == RequiresConsecutive(ms, test, i, col)
  {
    i > 0 && col > 0 &&
    (if test == TestsM then mm[i][col] else dm[i][col]) == Add(dm[i - 1][col - 1], SCORE_MATCH_CONSECUTIVE)
  }

  /** The state of the backtrace before row `i`: rows above `i` hold their
      chosen picks, the scan of row `i` starts at `j` with `matchRequired` set as
      the pick above demands, and that start cell is reachable. With a
      `SCORE_MIN` score nothing is written and the scan has run out. */
  ghost predicate Tracing(ms: MatchStruct, test: ConsecutiveTest, positions: seq<nat>, out: seq<nat>,
                          i: int, j: int, matchRequired: bool)
    requires WellFormed(ms) && 0 < |ms.needle| <= |ms.haystack| && |ms.needle| <= |positions|
  {
    var n, m := |ms.needle|, |ms.haystack|;
    var score := M(ms, n - 1, m - 1);
    && -1 <= i < n && -1 <= j < m && |out| == |positions|
    && (forall k :: 0 <= k <= i || n <= k < |out| ==> out[k] == positions[k])
    && (score.NegInf? ==> out == positions && (i < n - 1 ==> j == -1))
    && (score.Fin? && i >= 0 ==> j == ScanStart(ms, out, i) && matchRequired == Mandatory(ms, test, out, i))
    && (score.Fin? && i >= 0 ==> j >= 0 && (if matchRequired then D(ms, i, j).Fin? else M(ms, i, j).Fin?))
    && (score.Fin? ==> forall k :: i < k < n ==> ChosenAt(ms, test, out, k))
  }

  /** One row of the backtrace: scan row `i` from `j`, record the pick and set
      `match_required` for the row below. */
  method BacktraceRow(ms: MatchStruct, test: ConsecutiveTest, dm: seq<seq<Score>>, mm: seq<seq<Score>>,
                      positions: seq<nat>, out: seq<nat>, i: nat, j: int, matchRequired: bool)
    returns (out': seq<nat>, j': int, matchRequired': bool)
    requires WellFormed(ms) && 0 < |ms.needle| <= |ms.haystack| && |ms.needle| <= |positions|
    requires IsReferenceMatrix(ms, dm, mm)
    requires Tracing(ms, test, positions, out, i, j, matchRequired)
    ensures Tracing(ms, test, positions, out', i - 1, j', matchRequired')
  {
    var n, m := |ms.needle|, |ms.haystack|;
    ghost var score := M(ms, n - 1, m - 1);
    if score.NegInf? && i == n - 1 {
      NoMatchInLastRow(ms, n - 1);
    }
    var col := ScanRow(ms, dm, mm, i, j, matchRequired);
    out', matchRequired' := out, matchRequired;
    if col >= 0 {
      // A score obtained through the consecutive bonus forces the previous
      // needle character onto the column just before.
      matchRequired' := ConsecutiveRequired(ms, test, dm, mm, i, col);
      out' := out[i := col];
      if score.Fin? {
        PickIsChosen(ms, test, out, i, col, out');
      }
      j' := col - 1;
    } else {
      j' := -1;
    }
  }

  /** The backtrace over full matrices: walking rows from the last needle
      character down, each row takes the rightmost qualifying column left of the
      column taken on the row above. Entries of `positions` for rows it does not
      reach, and entries past the needle, are left as they were. `test` names the
      cell compared with the consecutive-bonus path; `match_positions` uses `TestsM`. */
  method Backtrace(ms: MatchStruct, test: ConsecutiveTest, dm: seq<seq<Score>>, mm: seq<seq<Score>>, positions: seq<nat>)
    returns (out: seq<nat>)
    requires WellFormed(ms) && 0 < |ms.needle| <= |ms.haystack| && |ms.needle| <= |positions|
    requires IsReferenceMatrix(ms, dm, mm)
    ensures |out| == |positions|
    ensures M(ms, |ms.needle| - 1, |ms.haystack| - 1).NegInf? ==> out == positions
    ensures M(ms, |ms.needle| - 1, |ms.haystack| - 1).Fin? ==>
              (forall k :: 0 <= k < |ms.needle| ==> ChosenAt(ms, test, out, k))
    ensures forall k :: |ms.needle| <= k < |out| ==> out[k] == positions[k]
  {
    out := positions;
    var matchRequired := false;
    var i: int := |ms.needle| - 1;
    var j: int := |ms.haystack| - 1;
    while i >= 0
      invariant Tracing(ms, test, positions, out, i, j, matchRequired)
    {
      out, j, matchRequired := BacktraceRow(ms, test, dm, mm, positions, out, i, j, matchRequired);
      i := i - 1;
    }
  }

  /** The forward pass of `match_positions`: every row of D and M is kept. */
  method FillMatrices(ms: MatchStruct) returns (dm: seq<seq<Score>>, mm: seq<seq<Score>>)
    requires WellFormed(ms)
    ensures IsReferenceMatrix(ms, dm, mm)
  {
    var n := |ms.needle|;
    dm, mm := [], [];
    var i := 0;
    while i < n
      invariant i <= n && |dm| == i && |mm| == i
      invariant forall k :: 0 <= k < i ==> IsReferenceRow(ms, k, dm[k], mm[k])
    {
      var lastD := if i == 0 then [] else dm[i - 1];
      var lastM := if i == 0 then [] else mm[i - 1];
      var currD, currM := MatchRow(ms, i, lastD, lastM);
      RowIsReference(ms, i, lastD, lastM, currD, currM);
      dm, mm := dm + [currD], mm + [currM];
      i := i + 1;
    }
  }

  /** The score of `match` together with one haystack position per needle
      character; `positions` is the caller's buffer (`None` for a NULL pointer). */
  method MatchPositions(needle: seq<char>, haystack: seq<char>, positions: Option<seq<nat>>,
                        caseSensitive: bool, bonus: BonusFn)
    returns (score: Score, out: Option<seq<nat>>)
    requires positions.Some? ==> |needle| <= |positions.value|
    ensures |needle| == 0 || |haystack| > MATCH_MAX_LEN || |needle| > |haystack| ==> score == NegInf
    ensures score == ReferenceScore(needle, haystack, caseSensitive, bonus)
    ensures out.Some? <==> positions.Some?
    ensures out.Some? ==> |out.value| == |positions.value|
    ensures out.Some? ==> forall k :: |needle| <= k < |out.value| ==> out.value[k] == positions.value[k]
    ensures score.NegInf? ==> out == positions
    ensures score.Fin? && out.Some? ==>
              forall k :: 0 <= k < |needle| ==> ChosenAt(Prepare(needle, haystack, caseSensitive, bonus), TestsM, out.value, k)
    ensures score.Fin? && out.Some? ==>
              forall k :: 0 <= k < |needle| ==>
                && out.value[k] < |haystack|
                && D(Prepare(needle, haystack, caseSensitive, bonus), k, out.value[k]).Fin?
                && FoldChar(needle[k], caseSensitive) == FoldChar(haystack[out.value[k]], caseSensitive)
    ensures score.Fin? && out.Some? ==> forall k :: 0 <= k < |needle| - 1 ==> out.value[k] < out.value[k + 1]
  {
    if |needle| == 0 {
      return NegInf, positions;
    }
    var setup := SetupMatch(needle, haystack, caseSensitive, bonus);
    var n := |needle|;
    var m := |haystack|;
    if m > MATCH_MAX_LEN || n > m {
      return NegInf, positions;
    }
    var ms := setup.value;
    var dm, mm := FillMatrices(ms);
    score := mm[n - 1][m - 1];
    out := positions;
    if positions.Some? {
      var buf := Backtrace(ms, TestsM, dm, mm, positions.value);
      out := Some(buf);
      if score.Fin? {
        ChosenPositionsAreMatches(ms, TestsM, buf);
      }
    }
  }

  /** `match_positions` with the backtrace testing `D[i][j]` instead of `M[i][j]`
      against the consecutive-bonus path: the same score, and positions that
      form an alignment scoring exactly that, which no alignment beats. */
  method MatchPositionsCorrected(needle: seq<char>, haystack: seq<char>, positions: Option<seq<nat>>,
                                 caseSensitive: bool, bonus: BonusFn)
    returns (score: Score, out: Option<seq<nat>>)
    requires positions.Some? ==> |needle| <= |positions.value|
    ensures |needle| == 0 || |haystack| > MATCH_MAX_LEN || |needle| > |haystack| ==> score == NegInf
    ensures score == ReferenceScore(needle, haystack, caseSensitive, bonus)
    ensures out.Some? <==> positions.Some?
    ensures out.Some? ==> |out.value| == |positions.value|
    ensures out.Some? ==> forall k :: |needle| <= k < |out.value| ==> out.value[k] == positions.value[k]
    ensures score.NegInf? ==> out == positions
    ensures var ms := Prepare(needle, haystack, caseSensitive, bonus);
      score.Fin? && out.Some? ==>
        && (forall k :: 0 <= k < |needle| ==> ChosenAt(ms, TestsD, out.value, k))
        && AlignsAll(ms, out.value) && FullScore(ms, out.value) == score.v
        && (forall pos :: AlignsAll(ms, pos) ==> FullScore(ms, pos) <= score.v)
  {
    if |needle| == 0 {
      return NegInf, positions;
    }
    var setup := SetupMatch(needle, haystack, caseSensitive, bonus);
    var n := |needle|;
    var m := |haystack|;
    if m > MATCH_MAX_LEN || n > m {
      return NegInf, positions;
    }
    var ms := setup.value;
    var dm, mm := FillMatrices(ms);
    score := mm[n - 1][m - 1];
    out := positions;
    if positions.Some? {
      var buf := Backtrace(ms, TestsD, dm, mm, positions.value);
      out := Some(buf);
      if score.Fin? {
        assert score == M(ms, n - 1, m - 1);
        CorrectedBacktraceIsOptimal(ms, buf);
      }
    }
  }
}

=== FILE: fzy_optimality.dfy ===
/**
 * What the scorer's cells mean: the best score over all alignments.
 *
 * An alignment of needle[0..i] inside haystack[0..j] places each needle
 * character on an equal (compared) haystack character at strictly increasing
 * positions, the last at or before `j`. Its score adds up:
 *  - for the first character at position p, `p` leading-gap penalties and the bonus of p;
 *  - for each next character, the larger of its bonus and the consecutive-match
 *    bonus when it sits right after the previous one, else its bonus plus one
 *    gap penalty per skipped haystack position;
 *  - one gap penalty per haystack position after the last placed character, up to `j`.
 * D(ms, i, j) is the best score of the alignments that place needle[i] at j,
 * and M(ms, i, j) the best score of all of them; `ScoreIsBestAlignment` lifts
 * this to the score of `match` and `match_positions`.
 */
module FzyOptimality {
  import opened Scores
  import opened FzyRecurrence

  /** `pos[0..i]` is an alignment of needle[0..i] inside haystack[0..j]. */
  predicate Aligns(ms: MatchStruct, pos: seq<nat>, i: nat, j: nat)
    requires WellFormed(ms)
  {
    && i < |pos| && i < |ms.needle| && j < |ms.haystack| && pos[i] <= j
    && (forall k :: 0 <= k <= i ==> pos[k] < |ms.haystack| && ms.needle[k] == ms.haystack[pos[k]])
    && (forall k :: 0 < k <= i ==> pos[k - 1] < pos[k])
  }

  /** What placing needle[k] at pos[k] adds, given needle[k-1] at pos[k-1]. */
  function StepScore(ms: MatchStruct, pos: seq<nat>, k: nat): int
    requires WellFormed(ms) && 0 < k < |pos| && Aligns(ms, pos, k, pos[k])
  {
    var b := ms.matchBonus[pos[k]];
    if pos[k] == pos[k - 1] + 1 then
      (if b > SCORE_MATCH_CONSECUTIVE then b else SCORE_MATCH_CONSECUTIVE)
    else b + (pos[k] - pos[k - 1] - 1) * Gap(|ms.needle|, k - 1)
  }

  /** The score of the alignment pos[0..i], ending with the match at pos[i]. */
  function EndScore(ms: MatchStruct, pos: seq<nat>, i: nat): int
    requires WellFormed(ms) && i < |pos| && Aligns(ms, pos, i, pos[i])
  {
    if i == 0 then pos[0] * SCORE_GAP_LEADING + ms.matchBonus[pos[0]]
    else EndScore(ms, pos, i - 1) + StepScore(ms, pos, i)
  }

  /** The score of the alignment pos[0..i] inside haystack[0..j]: the gap after
      the last match is charged up to `j`. */
  function AlignScore(ms: MatchStruct, pos: seq<nat>, i: nat, j: nat): int
    requires WellFormed(ms) && Aligns(ms, pos, i, j)
  {
    EndScore(ms, pos, i) + (j - pos[i]) * Gap(|ms.needle|, i)
  }

  /** `pos` aligns the whole needle inside the whole haystack. */
  predicate AlignsAll(ms: MatchStruct, pos: seq<nat>)
    requires WellFormed(ms)
  {
    0 < |ms.needle| <= |ms.haystack| && Aligns(ms, pos, |ms.needle| - 1, |ms.haystack| - 1)
  }

  /** The score of an alignment of the whole needle, trailing gap included. */
  function FullScore(ms: MatchStruct, pos: seq<nat>): int
    requires WellFormed(ms) && AlignsAll(ms, pos)
  {
    AlignScore(ms, pos, |ms.needle| - 1, |ms.haystack| - 1)
  }

  /** The score of an alignment depends only on its first i+1 positions. */
  lemma {:induction false} EndScoreFrame(ms: MatchStruct, pos: seq<nat>, pos': seq<nat>, i: nat)
    requires WellFormed(ms) && i < |pos| && i < |pos'|
    requires Aligns(ms, pos, i, pos[i]) && Aligns(ms, pos', i, pos'[i])
    requires forall k :: 0 <= k <= i ==> pos[k] == pos'[k]
    ensures EndScore(ms, pos, i) == EndScore(ms, pos', i)
  {
    if i > 0 {
      EndScoreFrame(ms, pos, pos', i - 1);
    }
  }

  /** No alignment that ends with needle[i] at j scores above D(ms, i, j). */
  lemma {:induction false} DBound(ms: MatchStruct, pos: seq<nat>, i: nat)
    requires WellFormed(ms) && i < |pos| && Aligns(ms, pos, i, pos[i])
    ensures AtMost(Fin(EndScore(ms, pos, i)), D(ms, i, pos[i]))
    decreases i, pos[i], 0
  {
    var j := pos[i];
    if i > 0 {
      var p := pos[i - 1];
      assert p < j;
      assert Aligns(ms, pos, i - 1, j - 1);
      MBound(ms, pos, i - 1, j - 1);
      if p == j - 1 {
        DBound(ms, pos, i - 1);
      }
    }
  }

  /** No alignment of needle[0..i] inside haystack[0..j] scores above M(ms, i, j). */
  lemma {:induction false} MBound(ms: MatchStruct, pos: seq<nat>, i: nat, j: nat)
    requires WellFormed(ms) && Aligns(ms, pos, i, j)
    ensures AtMost(Fin(AlignScore(ms, pos, i, j)), M(ms, i, j))
    decreases i, j, 1
  {
    var g := Gap(|ms.needle|, i);
    if pos[i] == j {
      DBound(ms, pos, i);
    } else {
      assert Aligns(ms, pos, i, j - 1);
      MBound(ms, pos, i, j - 1);
      assert (j - pos[i]) * g == (j - 1 - pos[i]) * g + g;
    }
  }

  /** Appending position j to an alignment of needle[0..i-1] that ends before j. */
  lemma Extend(ms: MatchStruct, pos': seq<nat>, i: nat, j: nat)
    requires WellFormed(ms) && 0 < i < |ms.needle| && j < |ms.haystack| && ms.needle[i] == ms.haystack[j]
    requires |pos'| == i && Aligns(ms, pos', i - 1, pos'[i - 1]) && pos'[i - 1] < j
    ensures Aligns(ms, pos' + [j], i, j)
    ensures EndScore(ms, pos' + [j], i) == EndScore(ms, pos', i - 1) + StepScore(ms, pos' + [j], i)
  {
    var pos := pos' + [j];
    assert Aligns(ms, pos, i - 1, pos[i - 1]);
    EndScoreFrame(ms, pos, pos', i - 1);
  }

  /** D(ms, i, j), when finite, is the score of an alignment ending with needle[i] at j. */
  lemma {:induction false} DAttained(ms: MatchStruct, i: nat, j: nat) returns (pos: seq<nat>)
    requires WellFormed(ms) && i < |ms.needle| && j < |ms.haystack| && D(ms, i, j).Fin?
    ensures |pos| == i + 1 && pos[i] == j && Aligns(ms, pos, i, j)
    ensures EndScore(ms, pos, i) == D(ms, i, j).v
    decreases i, j, 0
  {
    DFiniteIsMatch(ms, i, j);
    if i == 0 {
      pos := [j];
    } else {
      var b := ms.matchBonus[j];
      var viaGap := Add(M(ms, i - 1, j - 1), b);
      if D(ms, i, j) == viaGap {
        var pos' := MAttained(ms, i - 1, j - 1);
        pos := pos' + [j];
        Extend(ms, pos', i, j);
        assert EndScore(ms, pos, i) >= M(ms, i - 1, j - 1).v + b;
      } else {
        var pos' := DAttained(ms, i - 1, j - 1);
        pos := pos' + [j];
        Extend(ms, pos', i, j);
        assert EndScore(ms, pos, i) >= D(ms, i - 1, j - 1).v + SCORE_MATCH_CONSECUTIVE;
      }
      DBound(ms, pos, i);
    }
  }

  /** M(ms, i, j), when finite, is the score of an alignment inside haystack[0..j]. */
  lemma {:induction false} MAttained(ms: MatchStruct, i: nat, j: nat) returns (pos: seq<nat>)
    requires WellFormed(ms) && i < |ms.needle| && j < |ms.haystack| && M(ms, i, j).Fin?
    ensures |pos| == i + 1 && Aligns(ms, pos, i, j)
    ensures AlignScore(ms, pos, i, j) == M(ms, i, j).v
    decreases i, j, 1
  {
    if M(ms, i, j) == D(ms, i, j) {
      pos := DAttained(ms, i, j);
    } else {
      var g := Gap(|ms.needle|, i);
      pos := MAttained(ms, i, j - 1);
      assert (j - pos[i]) * g == (j - 1 - pos[i]) * g + g;
    }
  }

  /** The score of `match` (and of `match_positions`) is the best alignment score:
      no alignment of the whole compared needle inside the whole compared haystack
      scores higher, and when the score is finite some alignment scores exactly it. */
  lemma ScoreIsBestAlignment(needle: seq<char>, haystack: seq<char>, caseSensitive: bool, bonus: BonusFn)
    ensures var ms := Prepare(needle, haystack, caseSensitive, bonus);
      |haystack| <= MATCH_MAX_LEN ==>
        forall pos :: AlignsAll(ms, pos) ==>
          AtMost(Fin(FullScore(ms, pos)), ReferenceScore(needle, haystack, caseSensitive, bonus))
    ensures var ms := Prepare(needle, haystack, caseSensitive, bonus);
      ReferenceScore(needle, haystack, caseSensitive, bonus).Fin? ==>
        exists pos :: AlignsAll(ms, pos) && FullScore(ms, pos) == ReferenceScore(needle, haystack, caseSensitive, bonus).v
  {
    var ms := Prepare(needle, haystack, caseSensitive, bonus);
    if 0 < |needle| <= |haystack| <= MATCH_MAX_LEN {
      var n, m := |needle| - 1, |haystack| - 1;
      forall pos | AlignsAll(ms, pos)
        ensures AtMost(Fin(FullScore(ms, pos)), M(ms, n, m))
      {
        MBound(ms, pos, n, m);
      }
      if M(ms, n, m).Fin? {
        var pos := MAttained(ms, n, m);
        assert AlignsAll(ms, pos);
      }
    }
  }

  // ---- The backtrace ----

  /** Columns p+1..s of row i do not qualify for a scan that does not require a
      match, so M on that row only adds gaps after column p. */
  lemma {:induction false} GapRun(ms: MatchStruct, i: nat, p: nat, s: nat)
    requires WellFormed(ms) && i < |ms.needle| && p <= s < |ms.haystack| && M(ms, i, p).Fin?
    requires forall c :: p < c <= s ==> !Qualifies(ms, i, c, false)
    ensures M(ms, i, s) == Add(M(ms, i, p), (s - p) * Gap(|ms.needle|, i))
    decreases s
  {
    if s > p {
      var g := Gap(|ms.needle|, i);
      GapRun(ms, i, p, s - 1);
      assert !Qualifies(ms, i, s, false);
      assert (s - p) * g == (s - 1 - p) * g + g;
    }
  }

  /** One step of `CorrectedPickScore`: if the pick of row i-1 scores its D cell,
      so does the pick of row i. Either the pick of row i passed the corrected
      test, and row i-1 sits right before it and gains the consecutive bonus, or
      it did not, and row i-1's pick plus its gaps is M(i-1, j-1), which D(i, j)
      extends by the bonus of j. */
  lemma CorrectedStep(ms: MatchStruct, pos: seq<nat>, i: nat)
    requires WellFormed(ms) && 0 < i < |ms.needle| <= |pos|
    requires Aligns(ms, pos, i, pos[i]) && Aligns(ms, pos, i - 1, pos[i - 1])
    requires ChosenAt(ms, TestsD, pos, i - 1) && D(ms, i, pos[i]).Fin? && D(ms, i - 1, pos[i - 1]).Fin?
    requires EndScore(ms, pos, i - 1) == D(ms, i - 1, pos[i - 1]).v
    ensures EndScore(ms, pos, i) == D(ms, i, pos[i]).v
  {
    var j, p := pos[i], pos[i - 1];
    var b := ms.matchBonus[j];
    assert ScanStart(ms, pos, i - 1) == j - 1;
    var dd, dm := D(ms, i - 1, j - 1), M(ms, i - 1, j - 1);
    assert D(ms, i, j) == Max(Add(dm, b), Add(dd, SCORE_MATCH_CONSECUTIVE));
    assert AtMost(dd, dm);
    if Mandatory(ms, TestsD, pos, i - 1) {
      assert p == j - 1 by {
        assert Qualifies(ms, i - 1, j - 1, true);
      }
    } else {
      assert dm == Add(M(ms, i - 1, p), (j - 1 - p) * Gap(|ms.needle|, i - 1)) by {
        assert Qualifies(ms, i - 1, p, false);
        GapRun(ms, i - 1, p, j - 1);
      }
      if p == j - 1 {
        assert b > SCORE_MATCH_CONSECUTIVE;
      }
    }
  }

  /** With the corrected test, every pick of the backtrace ends an alignment
      whose score is exactly the D cell of the pick. */
  lemma {:induction false} CorrectedPickScore(ms: MatchStruct, pos: seq<nat>, i: nat)
    requires WellFormed(ms) && i < |ms.needle| <= |pos|
    requires forall k :: 0 <= k < |ms.needle| ==> ChosenAt(ms, TestsD, pos, k)
    ensures Aligns(ms, pos, i, pos[i]) && D(ms, i, pos[i]).Fin?
    ensures EndScore(ms, pos, i) == D(ms, i, pos[i]).v
  {
    ChosenPositionsAreMatches(ms, TestsD, pos);
    assert Aligns(ms, pos, i, pos[i]);
    if i > 0 {
      CorrectedPickScore(ms, pos, i - 1);
      CorrectedStep(ms, pos, i);
    }
  }

  /** With the corrected test, a completed backtrace is an optimal alignment:
      it aligns the whole needle, scores exactly the final M cell, and no
      alignment scores more. */
  lemma CorrectedBacktraceIsOptimal(ms: MatchStruct, pos: seq<nat>)
    requires WellFormed(ms) && 0 < |ms.needle| <= |ms.haystack| && |ms.needle| <= |pos|
    requires forall k :: 0 <= k < |ms.needle| ==> ChosenAt(ms, TestsD, pos, k)
    ensures AlignsAll(ms, pos) && M(ms, |ms.needle| - 1, |ms.haystack| - 1).Fin?
    ensures FullScore(ms, pos) == M(ms, |ms.needle| - 1, |ms.haystack| - 1).v
    ensures forall other :: AlignsAll(ms, other) ==> FullScore(ms, other) <= FullScore(ms, pos)
  {
    var n, m := |ms.needle| - 1, |ms.haystack| - 1;
    CorrectedPickScore(ms, pos, n);
    assert ChosenAt(ms, TestsD, pos, n);
    assert Qualifies(ms, n, pos[n], false);
    GapRun(ms, n, pos[n], m);
    assert AlignsAll(ms, pos);
    forall other | AlignsAll(ms, other)
      ensures FullScore(ms, other) <= FullScore(ms, pos)
    {
      MBound(ms, other, n, m);
    }
  }

  /** A bonus of 900 after a slash and none elsewhere. */
  function SlashBonus(last: char, ch: char): int {
    if last == '/' then 900 else 0
  }

  /** "abc" in "ababc", case-sensitive, scored with `SlashBonus`. */
  function SlashExample(): MatchStruct {
    Prepare("abc", "ababc", true, SlashBonus)
  }

  /** Rows 0 and 1 of the example's recurrence. */
  lemma SlashExampleUpperRows()
    ensures var ms := SlashExample();
      && D(ms, 0, 0) == Fin(900) && M(ms, 0, 0) == Fin(900)
      && D(ms, 0, 1) == NegInf && D(ms, 0, 2) == Fin(-10) && M(ms, 0, 2) == Fin(880)
      && D(ms, 1, 3) == Fin(990) && M(ms, 1, 3) == Fin(1880)
  {
    var ms := SlashExample();
    assert ms.needle == "abc";
    assert ms.haystack == "ababc";
    assert ms.matchBonus == [900, 0, 0, 0, 0];
    assert D(ms, 0, 0) == Fin(900) && M(ms, 0, 0) == Fin(900);
    assert D(ms, 0, 1) == NegInf && M(ms, 0, 1) == Fin(890);
    assert D(ms, 0, 2) == Fin(-10) && M(ms, 0, 2) == Fin(880);
    assert D(ms, 1, 0) == NegInf && M(ms, 1, 0) == NegInf;
    assert D(ms, 1, 1) == Fin(1900) && M(ms, 1, 1) == Fin(1900);
    assert D(ms, 1, 2) == NegInf && M(ms, 1, 2) == Fin(1890);
    assert D(ms, 1, 3) == Fin(990) && M(ms, 1, 3) == Fin(1880);
  }

  /** Row 2, the last, of the example's recurrence. */
  lemma SlashExampleLastRow()
    ensures var ms := SlashExample(); D(ms, 2, 4) == Fin(1990) && M(ms, 2, 4) == Fin(1990)
  {
    var ms := SlashExample();
    SlashExampleUpperRows();
    assert ms.needle == "abc";
    assert ms.haystack == "ababc";
    assert ms.matchBonus[4] == 0;
    assert M(ms, 2, 0) == NegInf && M(ms, 2, 1) == NegInf;
    assert M(ms, 2, 2) == NegInf && M(ms, 2, 3) == NegInf;
  }

  /** The two alignments of the example that the backtraces pick, with their scores. */
  lemma SlashExampleAlignments()
    ensures var ms := SlashExample();
      && AlignsAll(ms, [0, 3, 4]) && FullScore(ms, [0, 3, 4]) == 1880
      && AlignsAll(ms, [2, 3, 4]) && FullScore(ms, [2, 3, 4]) == 1990
  {
    var ms := SlashExample();
    assert ms.needle == "abc";
    assert ms.haystack == "ababc";
    assert ms.matchBonus == [900, 0, 0, 0, 0];
    var asWritten, best := [0, 3, 4], [2, 3, 4];
    assert AlignsAll(ms, asWritten) && AlignsAll(ms, best);
    assert EndScore(ms, asWritten, 0) == 900 && EndScore(ms, asWritten, 1) == 880;
    assert EndScore(ms, best, 0) == -10 && EndScore(ms, best, 1) == 990;
  }

  /** The test of `match_positions` loses the optimum. For "abc" in "ababc",
      case-sensitive, with a bonus only after a slash (so at position 0), the
      score is 1990, which the alignment [2, 3, 4] reaches. Testing M, the
      backtrace picks [0, 3, 4], which scores 1880: on row 1 the M cell,
      reached through a gap, does not equal D(0, 2) + 1000, so row 0 is free to
      take column 0. */
  lemma BacktraceCounterexample()
    ensures ReferenceScore("abc", "ababc", true, SlashBonus) == Fin(1990)
    ensures var ms := Prepare("abc", "ababc", true, SlashBonus);
      && (forall k :: 0 <= k < 3 ==> ChosenAt(ms, TestsM, [0, 3, 4], k))
      && AlignsAll(ms, [0, 3, 4]) && FullScore(ms, [0, 3, 4]) == 1880
    ensures var ms := Prepare("abc", "ababc", true, SlashBonus);
      AlignsAll(ms, [2, 3, 4]) && FullScore(ms, [2, 3, 4]) == 1990
  {
    var ms := SlashExample();
    SlashExampleUpperRows();
    SlashExampleLastRow();
    assert ms.needle == "abc";
    assert ms.haystack == "ababc";
    assert ms.matchBonus == [900, 0, 0, 0, 0];
    var asWritten := [0, 3, 4];
    assert ChosenAt(ms, TestsM, asWritten, 2);
    assert Mandatory(ms, TestsM, asWritten, 1) && ChosenAt(ms, TestsM, asWritten, 1);
    assert !Mandatory(ms, TestsM, asWritten, 0) && ChosenAt(ms, TestsM, asWritten, 0);
    SlashExampleAlignments();
  }

  /** On the same input, the backtrace testing D picks the optimal [2, 3, 4]. */
  lemma CorrectedBacktraceOnCounterexample()
    ensures var ms := Prepare("abc", "ababc", true, SlashBonus);
      forall k :: 0 <= k < 3 ==> ChosenAt(ms, TestsD, [2, 3, 4], k)
  {
    var ms := SlashExample();
    SlashExampleUpperRows();
    SlashExampleLastRow();
    assert ms.needle == "abc";
    assert ms.haystack == "ababc";
    var corrected := [2, 3, 4];
    assert ChosenAt(ms, TestsD, corrected, 2);
    assert Mandatory(ms, TestsD, corrected, 1) && ChosenAt(ms, TestsD, corrected, 1);
    assert Mandatory(ms, TestsD, corrected, 0) && ChosenAt(ms, TestsD, corrected, 0);
  }
}

=== FILE: fzy_recurrence.dfy ===
/**
 * The alignment recurrence of the fzy scorer, stated once, declaratively.
 *
 * `D(ms, i, j)` is the cell for alignments of needle[0..i] inside haystack[0..j]
 * that match needle[i] exactly at haystack[j], and `M(ms, i, j)` the cell for
 * all alignments of needle[0..i] inside haystack[0..j]. Both scorer entry points
 * are proved to compute these cells; FzyOptimality proves that each cell is the
 * best score over its alignments.
 */
module FzyRecurrence {
  import opened Scores
  import opened Chars

  /** What `setup_match_struct` prepares: the compared (possibly lower-cased) copies
      of needle and haystack and the bonus of every haystack position. */
  datatype MatchStruct = MatchStruct(needle: seq<char>, haystack: seq<char>, matchBonus: seq<int>)

  /** `COMPUTE_BONUS(last_ch, ch)`; its definition is not part of this model. */
  type BonusFn = (char, char) -> int

  predicate WellFormed(ms: MatchStruct) {
    |ms.matchBonus| == |ms.haystack|
  }

  /** The character actually compared: itself when case-sensitive, else `tolower`. */
  function FoldChar(c: char, caseSensitive: bool): char {
    if caseSensitive then c else ToLower(c)
  }

  function FoldAll(s: seq<char>, caseSensitive: bool): (r: seq<char>)
    ensures |r| == |s|
    ensures forall i :: 0 <= i < |s| ==> r[i] == FoldChar(s[i], caseSensitive)
  {
    seq(|s|, i requires 0 <= i < |s| => FoldChar(s[i], caseSensitive))
  }

  /** The bonus of haystack position `j`: it depends on the ORIGINAL (unfolded)
      character before `j`, with a virtual '/' before position 0. */
  function BonusAt(haystack: seq<char>, bonus: BonusFn, j: nat): int
    requires j < |haystack|
  {
    bonus(if j == 0 then '/' else haystack[j - 1], haystack[j])
  }

  function Prepare(needle: seq<char>, haystack: seq<char>, caseSensitive: bool, bonus: BonusFn): (ms: MatchStruct)
    ensures WellFormed(ms)
    ensures |ms.needle| == |needle| && |ms.haystack| == |haystack|
  {
    MatchStruct(FoldAll(needle, caseSensitive), FoldAll(haystack, caseSensitive),
                seq(|haystack|, j requires 0 <= j < |haystack| => BonusAt(haystack, bonus, j)))
  }

  /** Trailing-gap penalty on the last needle row, inner-gap penalty on the others. */
  function Gap(n: nat, i: nat): int {
    if i == n - 1 then SCORE_GAP_TRAILING else SCORE_GAP_INNER
  }

  /** One D cell, given the D and M cells on the diagonal before it. */
  function CellD(ms: MatchStruct, i: nat, j: nat, diagM: Score, diagD: Score): Score
    requires WellFormed(ms) && i < |ms.needle| && j < |ms.haystack|
  {
    if ms.needle[i] != ms.haystack[j] then NegInf
    else if i == 0 then Fin(j * SCORE_GAP_LEADING + ms.matchBonus[j])
    else if j == 0 then NegInf
    else Max(Add(diagM, ms.matchBonus[j]), Add(diagD, SCORE_MATCH_CONSECUTIVE))
  }

  /** One M cell: either end with a match here or skip haystack[j] with a gap. */
  function CellM(d: Score, left: Score, gap: int): Score {
    Max(d, Add(left, gap))
  }

  ghost function D(ms: MatchStruct, i: nat, j: nat): Score
    requires WellFormed(ms) && i < |ms.needle| && j < |ms.haystack|
    decreases i, j, 0
  {
    if i > 0 && j > 0 then CellD(ms, i, j, M(ms, i - 1, j - 1), D(ms, i - 1, j - 1))
    else CellD(ms, i, j, NegInf, NegInf)
  }

  ghost function M(ms: MatchStruct, i: nat, j: nat): Score
    requires WellFormed(ms) && i < |ms.needle| && j < |ms.haystack|
    decreases i, j, 1
  {
    CellM(D(ms, i, j), if j == 0 then NegInf else M(ms, i, j - 1), Gap(|ms.needle|, i))
  }

  /** The score both entry points return: the sentinel for an empty needle, an
      over-long haystack or a needle longer than the haystack, else M[n-1][m-1]. */
  ghost function ReferenceScore(needle: seq<char>, haystack: seq<char>, caseSensitive: bool, bonus: BonusFn): Score {
    if |needle| == 0 || |haystack| > MATCH_MAX_LEN || |needle| > |haystack| then NegInf
    else M(Prepare(needle, haystack, caseSensitive, bonus), |needle| - 1, |haystack| - 1)
  }

  /** The previous-row cell on the diagonal, as `match_row` reads it (never read on row 0 or column 0). */
  function Diag(row: seq<Score>, i: nat, j: nat): Score {
    if i > 0 && j > 0 && j - 1 < |row| then row[j - 1] else NegInf
  }

  /** The cell left of `j` on the same row, the sentinel left of column 0. */
  function Left(row: seq<Score>, j: nat): Score {
    if 0 < j <= |row| then row[j - 1] else NegInf
  }

  /** `currD`/`currM` is row `i` computed from the rows `lastD`/`lastM` by the per-cell recurrence. */
  ghost predicate IsRow(ms: MatchStruct, i: nat, lastD: seq<Score>, lastM: seq<Score>, currD: seq<Score>, currM: seq<Score>)
    requires WellFormed(ms) && i < |ms.needle|
  {
    && |currD| == |ms.haystack| && |currM| == |ms.haystack|
    && (forall j :: 0 <= j < |ms.haystack| ==> currD[j] == CellD(ms, i, j, Diag(lastM, i, j), Diag(lastD, i, j)))
    && (forall j :: 0 <= j < |ms.haystack| ==>
          currM[j] == CellM(currD[j], Left(currM, j), Gap(|ms.needle|, i)))
  }

  ghost predicate IsReferenceRow(ms: MatchStruct, i: nat, dRow: seq<Score>, mRow: seq<Score>)
    requires WellFormed(ms) && i < |ms.needle|
  {
    && |dRow| == |ms.haystack| && |mRow| == |ms.haystack|
    && forall j :: 0 <= j < |ms.haystack| ==> dRow[j] == D(ms, i, j) && mRow[j] == M(ms, i, j)
  }

  ghost predicate IsReferenceMatrix(ms: MatchStruct, dm: seq<seq<Score>>, mm: seq<seq<Score>>)
    requires WellFormed(ms)
  {
    && |dm| == |ms.needle| && |mm| == |ms.needle|
    && (forall i :: 0 <= i < |ms.needle| ==> |dm[i]| == |ms.haystack| && |mm[i]| == |ms.haystack|)
    && (forall i, j :: 0 <= i < |ms.needle| && 0 <= j < |ms.haystack| ==> dm[i][j] == D(ms, i, j) && mm[i][j] == M(ms, i, j))
  }

  /** Applying the row recurrence to the reference row i-1 yields the reference row i. */
  lemma RowIsReference(ms: MatchStruct, i: nat, lastD: seq<Score>, lastM: seq<Score>, currD: seq<Score>, currM: seq<Score>)
    requires WellFormed(ms) && i < |ms.needle|
    requires i > 0 ==> IsReferenceRow(ms, i - 1, lastD, lastM)
    requires IsRow(ms, i, lastD, lastM, currD, currM)
    ensures IsReferenceRow(ms, i, currD, currM)
  {
    var j := 0;
    while j < |ms.haystack|
      invariant j <= |ms.haystack|
      invariant forall k :: 0 <= k < j ==> currD[k] == D(ms, i, k) && currM[k] == M(ms, i, k)
    {
      assert currD[j] == D(ms, i, j);
      assert currM[j] == CellM(D(ms, i, j), if j == 0 then NegInf else M(ms, i, j - 1), Gap(|ms.needle|, i));
      j := j + 1;
    }
  }

  // ---- Facts about finite cells, used by the backtrace ----

  /** A finite D cell is a real match, and below row 0 it has a diagonal predecessor. */
  lemma DFiniteIsMatch(ms: MatchStruct, i: nat, j: nat)
    requires WellFormed(ms) && i < |ms.needle| && j < |ms.haystack|
    requires D(ms, i, j).Fin?
    ensures ms.needle[i] == ms.haystack[j]
    ensures i > 0 ==> j > 0
  {
  }

  /** A finite D cell makes every M cell to its right on the same row finite. */
  lemma {:induction false} MFiniteRightOf(ms: MatchStruct, i: nat, j: nat, k: nat)
    requires WellFormed(ms) && i < |ms.needle| && j <= k < |ms.haystack|
    requires D(ms, i, j).Fin?
    ensures M(ms, i, k).Fin?
    decreases k
  {
    if k > j {
      MFiniteRightOf(ms, i, j, k - 1);
    }
  }

  /** When the best score is the sentinel, no cell of the last row ends a match. */
  lemma NoMatchInLastRow(ms: MatchStruct, last: nat)
    requires WellFormed(ms) && last + 1 == |ms.needle| && 0 < |ms.haystack|
    requires M(ms, last, |ms.haystack| - 1).NegInf?
    ensures forall j :: 0 <= j < |ms.haystack| ==> D(ms, last, j).NegInf?
  {
    forall j | 0 <= j < |ms.haystack|
      ensures D(ms, last, j).NegInf?
    {
      if D(ms, last, j).Fin? {
        MFiniteRightOf(ms, last, j, |ms.haystack| - 1);
      }
    }
  }

  /** Column `j` qualifies on row `i` of the backtrace: D is finite there and either a
      match is mandatory or D attains M. */
  ghost predicate Qualifies(ms: MatchStruct, i: int, j: int, matchRequired: bool)
    requires WellFormed(ms)
  {
    && 0 <= i < |ms.needle| && 0 <= j < |ms.haystack|
    && D(ms, i, j).Fin?
    && (matchRequired || D(ms, i, j) == M(ms, i, j))
  }

  /** The cell the backtrace compares with D(i-1, j-1) + SCORE_MATCH_CONSECUTIVE
      to decide that the previous needle character must sit at j-1: `M[i][j]`, as
      `match_positions` does, or `D[i][j]`, the score of the match just picked. */
  datatype ConsecutiveTest = TestsM | TestsD

  /** The backtrace takes the pick at (i, j) to have been scored through the
      consecutive-match bonus, so the previous needle character must sit at j-1. */
  ghost predicate RequiresConsecutive(ms: MatchStruct, test: ConsecutiveTest, i: int, j: int)
    requires WellFormed(ms)
  {
    && 0 < i < |ms.needle| && 0 < j < |ms.haystack|
    && (if test == TestsM then M(ms, i, j) else D(ms, i, j)) == Add(D(ms, i - 1, j - 1), SCORE_MATCH_CONSECUTIVE)
  }

  /** The rightmost column row k of the backtrace may take: left of the pick of row k+1. */
  function ScanStart(ms: MatchStruct, pos: seq<nat>, k: nat): int
    requires k < |ms.needle| <= |pos|
  {
    if k == |ms.needle| - 1 then |ms.haystack| as int - 1 else pos[k + 1] as int - 1
  }

  /** Row k must take exactly column ScanStart: the pick of row k+1 used the consecutive bonus. */
  ghost predicate Mandatory(ms: MatchStruct, test: ConsecutiveTest, pos: seq<nat>, k: nat)
    requires WellFormed(ms) && k < |ms.needle| <= |pos|
  {
    k < |ms.needle| - 1 && RequiresConsecutive(ms, test, k + 1, pos[k + 1])
  }

  /** Entry `k` of `pos` is what the backtrace picks on row `k`: the rightmost
      qualifying column left of the position picked on row k+1. */
  ghost predicate ChosenAt(ms: MatchStruct, test: ConsecutiveTest, pos: seq<nat>, k: nat)
    requires WellFormed(ms) && k < |ms.needle| <= |pos|
  {
    && pos[k] <= ScanStart(ms, pos, k)
    && Qualifies(ms, k, pos[k], Mandatory(ms, test, pos, k))
    && forall j: int :: pos[k] < j <= ScanStart(ms, pos, k) ==> !Qualifies(ms, k, j, Mandatory(ms, test, pos, k))
  }

  /** Whether row k's pick is the backtrace's choice depends only on entries k and k+1. */
  lemma ChosenAtDependsOnTwoEntries(ms: MatchStruct, test: ConsecutiveTest, pos: seq<nat>, pos': seq<nat>, k: nat)
    requires WellFormed(ms) && k < |ms.needle| <= |pos| && |ms.needle| <= |pos'|
    requires pos[k] == pos'[k] && (k + 1 < |ms.needle| ==> pos[k + 1] == pos'[k + 1])
    ensures ChosenAt(ms, test, pos, k) <==> ChosenAt(ms, test, pos', k)
  {
    assert ScanStart(ms, pos, k) == ScanStart(ms, pos', k);
    assert Mandatory(ms, test, pos, k) == Mandatory(ms, test, pos', k);
  }

  /** The choice rule pins the backtrace down: two position sequences chosen on
      rows k and above agree on those rows. */
  lemma {:induction false} ChosenAtUnique(ms: MatchStruct, test: ConsecutiveTest, pos: seq<nat>, pos': seq<nat>, k: nat)
    requires WellFormed(ms) && k < |ms.needle| <= |pos| && |ms.needle| <= |pos'|
    requires forall t :: k <= t < |ms.needle| ==> ChosenAt(ms, test, pos, t) && ChosenAt(ms, test, pos', t)
    ensures forall t :: k <= t < |ms.needle| ==> pos[t] == pos'[t]
    decreases |ms.needle| - k
  {
    if k < |ms.needle| - 1 {
      ChosenAtUnique(ms, test, pos, pos', k + 1);
    }
    assert ScanStart(ms, pos, k) == ScanStart(ms, pos', k);
    assert Mandatory(ms, test, pos, k) == Mandatory(ms, test, pos', k);
    assert ChosenAt(ms, test, pos, k) && ChosenAt(ms, test, pos', k);
  }

  /** Writing row i's pick, the rightmost qualifying column of its scan, keeps
      the picks of the rows above chosen and makes row i's chosen too. */
  lemma PickIsChosen(ms: MatchStruct, test: ConsecutiveTest, pos: seq<nat>, i: nat, col: nat, out: seq<nat>)
    requires WellFormed(ms) && i < |ms.needle| <= |pos| && out == pos[i := col]
    requires forall k :: i < k < |ms.needle| ==> ChosenAt(ms, test, pos, k)
    requires col <= ScanStart(ms, pos, i) && Qualifies(ms, i, col, Mandatory(ms, test, pos, i))
    requires forall c :: col < c <= ScanStart(ms, pos, i) ==> !Qualifies(ms, i, c, Mandatory(ms, test, pos, i))
    ensures forall k :: i <= k < |ms.needle| ==> ChosenAt(ms, test, out, k)
    ensures i > 0 ==> ScanStart(ms, out, i - 1) == col - 1
    ensures i > 0 ==> (Mandatory(ms, test, out, i - 1) <==> RequiresConsecutive(ms, test, i, col))
    ensures i > 0 ==>
      (0 < col && if RequiresConsecutive(ms, test, i, col) then D(ms, i - 1, col - 1).Fin? else M(ms, i - 1, col - 1).Fin?)
  {
    if i > 0 {
      BacktraceStep(ms, test, i, col);
    }
    forall k | i <= k < |ms.needle|
      ensures ChosenAt(ms, test, out, k)
    {
      if k > i {
        ChosenAtDependsOnTwoEntries(ms, test, pos, out, k);
      } else {
        assert ScanStart(ms, out, i) == ScanStart(ms, pos, i);
        assert Mandatory(ms, test, out, i) == Mandatory(ms, test, pos, i);
      }
    }
  }

  /** A row whose scan starts at a finite M cell finds a qualifying column:
      a cell that does not qualify was reached by a gap from a finite left neighbour. */
  lemma ScanStep(ms: MatchStruct, i: nat, j: nat)
    requires WellFormed(ms) && i < |ms.needle| && j < |ms.haystack|
    requires M(ms, i, j).Fin? && !Qualifies(ms, i, j, false)
    ensures j > 0 && M(ms, i, j - 1).Fin?
  {
  }

  /** After picking column j on row i > 0, row i-1 can continue at column j-1. */
  lemma BacktraceStep(ms: MatchStruct, test: ConsecutiveTest, i: nat, j: nat)
    requires WellFormed(ms) && 0 < i < |ms.needle| && j < |ms.haystack|
    requires D(ms, i, j).Fin?
    ensures j > 0 && M(ms, i - 1, j - 1).Fin?
    ensures RequiresConsecutive(ms, test, i, j) ==> D(ms, i - 1, j - 1).Fin?
  {
    assert j > 0;
    var dm := M(ms, i - 1, j - 1);
    var dd := D(ms, i - 1, j - 1);
    assert AtMost(D(ms, i, j), M(ms, i, j));
    if dd.Fin? {
      assert AtMost(dd, dm);
    }
  }

  /** The picks of a completed backtrace place each needle character on an equal
      haystack character, at strictly increasing positions, on finite D cells. */
  lemma ChosenPositionsAreMatches(ms: MatchStruct, test: ConsecutiveTest, pos: seq<nat>)
    requires WellFormed(ms) && |ms.needle| <= |pos|
    requires forall k :: 0 <= k < |ms.needle| ==> ChosenAt(ms, test, pos, k)
    ensures forall k :: 0 <= k < |ms.needle| ==> pos[k] < |ms.haystack| && D(ms, k, pos[k]).Fin?
    ensures forall k :: 0 <= k < |ms.needle| ==> ms.needle[k] == ms.haystack[pos[k]]
    ensures forall k :: 0 <= k < |ms.needle| - 1 ==> pos[k] < pos[k + 1]
  {
    forall k | 0 <= k < |ms.needle|
      ensures pos[k] < |ms.haystack| && D(ms, k, pos[k]).Fin? && ms.needle[k] == ms.haystack[pos[k]]
    {
      assert ChosenAt(ms, test, pos, k);
      DFiniteIsMatch(ms, k, pos[k]);
    }
    forall k | 0 <= k < |ms.needle| - 1
      ensures pos[k] < pos[k + 1]
    {
      assert ChosenAt(ms, test, pos, k);
    }
  }
}

=== FILE: fzy_theory.dfy ===
/**
 * What the fzy score means: it is finite exactly when the (folded) needle is a
 * subsequence of the (folded) haystack, and `has_match` decides that same
 * question whenever the search is case-sensitive or the needle has no
 * upper-case letter.
 */
module FzyTheory {
  import opened Wrappers
  import opened Scores
  import opened Chars
  import opened Subsequence
  import opened FzyRecurrence
  import opened FzyMatch

  // ---- general facts about embeddings ----

  lemma {:induction false} EmbeddingIncreasingFrom(needle: seq<char>, haystack: seq<char>, pos: seq<nat>, rel: CharRel, k: nat, k': nat)
    requires IsEmbedding(needle, haystack, pos, rel)
    requires k < k' < |pos|
    ensures pos[k] < pos[k']
    decreases k' - k
  {
    if k + 1 < k' {
      EmbeddingIncreasingFrom(needle, haystack, pos, rel, k + 1, k');
    }
  }

  /** Adjacent increase gives increase between any two entries. */
  lemma EmbeddingIncreasing(needle: seq<char>, haystack: seq<char>, pos: seq<nat>, rel: CharRel)
    requires IsEmbedding(needle, haystack, pos, rel)
    ensures forall k, k' :: 0 <= k < k' < |pos| ==> pos[k] < pos[k']
  {
    forall k, k' | 0 <= k < k' < |pos|
      ensures pos[k] < pos[k']
    {
      EmbeddingIncreasingFrom(needle, haystack, pos, rel, k, k');
    }
  }

  // ---- has_match is the greedy subsequence test ----

  function ShiftDown(pos: seq<nat>, d: nat): (r: seq<nat>)
    requires forall t :: 0 <= t < |pos| ==> d <= pos[t]
    ensures |r| == |pos| && forall t :: 0 <= t < |pos| ==> r[t] + d == pos[t]
  {
    seq(|pos|, t requires 0 <= t < |pos| => pos[t] - d)
  }

  function ShiftUp(pos: seq<nat>, d: nat): (r: seq<nat>)
    ensures |r| == |pos| && forall t :: 0 <= t < |pos| ==> r[t] == pos[t] + d
  {
    seq(|pos|, t requires 0 <= t < |pos| => pos[t] + d)
  }

  /** Placing needle[0] at k in front of an embedding of the rest after k. */
  lemma EmbeddingCons(needle: seq<char>, haystack: seq<char>, k: nat, tail: seq<nat>, rel: CharRel)
    requires 0 < |needle| && k < |haystack| && Related(rel, needle[0], haystack[k])
    requires IsEmbedding(needle[1..], haystack[k + 1..], tail, rel)
    ensures IsEmbedding(needle, haystack, [k] + ShiftUp(tail, k + 1), rel)
  {
    var pos := [k] + ShiftUp(tail, k + 1);
    forall t | 0 < t < |pos|
      ensures pos[t] < |haystack| && Related(rel, needle[t], haystack[pos[t]])
    {
      assert needle[t] == needle[1..][t - 1];
      assert haystack[pos[t]] == haystack[k + 1..][tail[t - 1]];
    }
  }

  /** An embedding whose first position is at or after k leaves an embedding of
      the rest of the needle in the haystack after k. */
  lemma EmbeddingUncons(needle: seq<char>, haystack: seq<char>, k: nat, pos: seq<nat>, rel: CharRel)
    requires 0 < |needle| && IsEmbedding(needle, haystack, pos, rel) && k <= pos[0]
    ensures Embeds(needle[1..], haystack[k + 1..], rel)
  {
    EmbeddingIncreasing(needle, haystack, pos, rel);
    var rest := haystack[k + 1..];
    var tail := ShiftDown(pos[1..], k + 1);
    forall t | 0 <= t < |tail|
      ensures tail[t] < |rest| && Related(rel, needle[1..][t], rest[tail[t]])
    {
      assert pos[1..][t] == pos[t + 1];
    }
    assert IsEmbedding(needle[1..], rest, tail, rel);
  }

  lemma {:induction false} HasMatchGivesEmbedding(needle: seq<char>, haystack: seq<char>, caseSensitive: bool)
    requires HasMatch(needle, haystack, caseSensitive)
    ensures Embeds(needle, haystack, Accept(caseSensitive))
    decreases |needle|
  {
    if |needle| == 0 {
      assert IsEmbedding(needle, haystack, [], Accept(caseSensitive));
    } else {
      var k := FindFirst(haystack, needle[0], caseSensitive).value;
      HasMatchGivesEmbedding(needle[1..], haystack[k + 1..], caseSensitive);
      var tail :| IsEmbedding(needle[1..], haystack[k + 1..], tail, Accept(caseSensitive));
      EmbeddingCons(needle, haystack, k, tail, Accept(caseSensitive));
    }
  }

  lemma {:induction false} EmbeddingGivesHasMatch(needle: seq<char>, haystack: seq<char>, caseSensitive: bool)
    requires Embeds(needle, haystack, Accept(caseSensitive))
    ensures HasMatch(needle, haystack, caseSensitive)
    decreases |needle|
  {
    if |needle| > 0 {
      var pos :| IsEmbedding(needle, haystack, pos, Accept(caseSensitive));
      var first := FindFirst(haystack, needle[0], caseSensitive);
      assert first.Some?;
      var k := first.value;
      assert k <= pos[0];
      EmbeddingUncons(needle, haystack, k, pos, Accept(caseSensitive));
      EmbeddingGivesHasMatch(needle[1..], haystack[k + 1..], caseSensitive);
    }
  }

  /** `has_match` succeeds exactly when every needle character can be placed, in
      order, on a strictly later haystack character of its accept set. */
  lemma HasMatchIffEmbeds(needle: seq<char>, haystack: seq<char>, caseSensitive: bool)
    ensures HasMatch(needle, haystack, caseSensitive) <==> Embeds(needle, haystack, Accept(caseSensitive))
  {
    if HasMatch(needle, haystack, caseSensitive) {
      HasMatchGivesEmbedding(needle, haystack, caseSensitive);
    }
    if Embeds(needle, haystack, Accept(caseSensitive)) {
      EmbeddingGivesHasMatch(needle, haystack, caseSensitive);
    }
  }

  // ---- the recurrence decides subsequence ----

  /** An embedding into a prefix of the haystack is one into any longer prefix. */
  lemma EmbeddingWiden(a: seq<char>, b: seq<char>, pos: seq<nat>, j: nat, j': nat)
    requires j <= j' <= |b| && IsEmbedding(a, b[..j], pos, Exact)
    ensures IsEmbedding(a, b[..j'], pos, Exact)
  {
    forall t | 0 <= t < |pos|
      ensures b[..j'][pos[t]] == b[..j][pos[t]]
    {
    }
  }

  /** An embedding whose positions all lie below j is one into the prefix b[..j]. */
  lemma EmbeddingNarrow(a: seq<char>, b: seq<char>, pos: seq<nat>, j: nat)
    requires j <= |b| && IsEmbedding(a, b, pos, Exact)
    requires forall t :: 0 <= t < |pos| ==> pos[t] < j
    ensures IsEmbedding(a, b[..j], pos, Exact)
  {
  }

  /** The embeddings ending at (i, j) are the embeddings of needle[0..i-1] into
      haystack[0..j-1] extended by the match of needle[i] on haystack[j]. */
  lemma EmbeddingSnoc(ms: MatchStruct, i: nat, j: nat, pos: seq<nat>)
    requires WellFormed(ms) && i < |ms.needle| && j < |ms.haystack| && ms.needle[i] == ms.haystack[j]
    requires IsEmbedding(ms.needle[..i], ms.haystack[..j], pos, Exact)
    ensures IsEmbedding(ms.needle[..i + 1], ms.haystack[..j + 1], pos + [j], Exact)
  {
    var a, b := ms.needle[..i + 1], ms.haystack[..j + 1];
    var pos' := pos + [j];
    forall t | 0 <= t < i
      ensures pos'[t] < |b| && Related(Exact, a[t], b[pos'[t]])
    {
      assert a[t] == ms.needle[..i][t];
      assert b[pos'[t]] == ms.haystack[..j][pos[t]];
    }
  }

  lemma EmbeddingUnsnoc(ms: MatchStruct, i: nat, j: nat, pos: seq<nat>)
    requires WellFormed(ms) && 0 < i < |ms.needle| && j < |ms.haystack|
    requires IsEmbedding(ms.needle[..i + 1], ms.haystack[..j + 1], pos, Exact) && pos[i] == j
    ensures ms.needle[i] == ms.haystack[j] && 0 < j
    ensures IsEmbedding(ms.needle[..i], ms.haystack[..j], pos[..i], Exact)
  {
    var a, b := ms.needle[..i + 1], ms.haystack[..j + 1];
    assert a[i] == ms.needle[i];
    EmbeddingIncreasing(a, b, pos, Exact);
    assert pos[i - 1] < pos[i];
    var pre := pos[..i];
    forall t | 0 <= t < i
      ensures pre[t] < j && Related(Exact, ms.needle[..i][t], ms.haystack[..j][pre[t]])
    {
      assert a[t] == ms.needle[..i][t];
    }
  }

  ghost predicate EndsAt(ms: MatchStruct, i: nat, j: nat)
    requires i < |ms.needle| && j < |ms.haystack|
  {
    exists pos :: IsEmbedding(ms.needle[..i + 1], ms.haystack[..j + 1], pos, Exact) && pos[i] == j
  }

  /** One step of the induction: the D cell is finite exactly when an embedding
      ends at (i, j), given that the diagonal M cell decides its own prefixes. */
  lemma DFiniteIffEndsAt(ms: MatchStruct, i: nat, j: nat)
    requires WellFormed(ms) && i < |ms.needle| && j < |ms.haystack|
    requires i > 0 && j > 0 ==> (M(ms, i - 1, j - 1).Fin? <==> Embeds(ms.needle[..i], ms.haystack[..j], Exact))
    ensures D(ms, i, j).Fin? <==> EndsAt(ms, i, j)
  {
    if D(ms, i, j).Fin? {
      DFiniteIsMatch(ms, i, j);
      if i == 0 {
        assert IsEmbedding(ms.needle[..1], ms.haystack[..j + 1], [j], Exact);
      } else {
        BacktraceStep(ms, TestsM, i, j);
        var pos :| IsEmbedding(ms.needle[..i], ms.haystack[..j], pos, Exact);
        EmbeddingSnoc(ms, i, j, pos);
      }
    }
    if EndsAt(ms, i, j) {
      var pos :| IsEmbedding(ms.needle[..i + 1], ms.haystack[..j + 1], pos, Exact) && pos[i] == j;
      if i == 0 {
        assert ms.needle[..1][0] == ms.needle[0];
      } else {
        EmbeddingUnsnoc(ms, i, j, pos);
        assert Add(M(ms, i - 1, j - 1), ms.matchBonus[j]).Fin?;
      }
    }
  }

  /** An M cell is finite exactly when needle[0..i] embeds in haystack[0..j]. */
  lemma {:induction false} MFiniteIff(ms: MatchStruct, i: nat, j: nat)
    requires WellFormed(ms) && i < |ms.needle| && j < |ms.haystack|
    ensures M(ms, i, j).Fin? <==> Embeds(ms.needle[..i + 1], ms.haystack[..j + 1], Exact)
    decreases i, j
  {
    var a, b := ms.needle[..i + 1], ms.haystack[..j + 1];
    if i > 0 && j > 0 {
      MFiniteIff(ms, i - 1, j - 1);
    }
    DFiniteIffEndsAt(ms, i, j);
    if j > 0 {
      MFiniteIff(ms, i, j - 1);
    }
    if M(ms, i, j).Fin? && !D(ms, i, j).Fin? {
      var pos :| IsEmbedding(a, ms.haystack[..j], pos, Exact);
      EmbeddingWiden(a, ms.haystack, pos, j, j + 1);
    }
    if Embeds(a, b, Exact) {
      var pos :| IsEmbedding(a, b, pos, Exact);
      if pos[i] != j {
        EmbeddingIncreasing(a, b, pos, Exact);
        forall t | 0 <= t < |pos|
          ensures pos[t] < j
        {
          if t < i {
            assert pos[t] < pos[i];
          }
        }
        EmbeddingNarrow(a, ms.haystack, pos, j);
      }
    }
  }

  /** A D cell is finite exactly when needle[0..i] embeds in haystack[0..j] with
      needle[i] on haystack[j]. */
  lemma DFiniteIff(ms: MatchStruct, i: nat, j: nat)
    requires WellFormed(ms) && i < |ms.needle| && j < |ms.haystack|
    ensures D(ms, i, j).Fin? <==>
              exists pos :: IsEmbedding(ms.needle[..i + 1], ms.haystack[..j + 1], pos, Exact) && pos[i] == j
  {
    if i > 0 && j > 0 {
      MFiniteIff(ms, i - 1, j - 1);
    }
    DFiniteIffEndsAt(ms, i, j);
  }

  /** The score (of `match` and of `match_positions`) is finite exactly when the
      needle is non-empty, the haystack is not over-long, and the folded needle
      is a subsequence of the folded haystack. */
  lemma ScoreFiniteIffSubsequence(needle: seq<char>, haystack: seq<char>, caseSensitive: bool, bonus: BonusFn)
    ensures ReferenceScore(needle, haystack, caseSensitive, bonus).Fin? <==>
              && 0 < |needle|
              && |haystack| <= MATCH_MAX_LEN
              && Embeds(FoldAll(needle, caseSensitive), FoldAll(haystack, caseSensitive), Exact)
  {
    var a, b := FoldAll(needle, caseSensitive), FoldAll(haystack, caseSensitive);
    if Embeds(a, b, Exact) {
      EmbedsNeedsRoom(a, b, Exact);
    }
    if 0 < |needle| <= |haystack| <= MATCH_MAX_LEN {
      var ms := Prepare(needle, haystack, caseSensitive, bonus);
      MFiniteIff(ms, |needle| - 1, |haystack| - 1);
      assert ms.needle[..|needle|] == a;
      assert ms.haystack[..|haystack|] == b;
    }
  }

  // ---- has_match against the score ----

  predicate NoUpper(s: seq<char>) {
    forall k :: 0 <= k < |s| ==> !IsUpper(s[k])
  }

  /** When the search is case-sensitive, or the needle has no upper-case letter,
      the accept sets of `has_match` and the folded comparison of `match` agree. */
  lemma AcceptAgreesWithFolding(needle: seq<char>, haystack: seq<char>, caseSensitive: bool, pos: seq<nat>)
    requires caseSensitive || NoUpper(needle)
    ensures IsEmbedding(needle, haystack, pos, Accept(caseSensitive)) <==>
              IsEmbedding(FoldAll(needle, caseSensitive), FoldAll(haystack, caseSensitive), pos, Exact)
  {
    var a, b := FoldAll(needle, caseSensitive), FoldAll(haystack, caseSensitive);
    if |pos| == |needle| && forall k :: 0 <= k < |pos| ==> pos[k] < |haystack| {
      forall k | 0 <= k < |pos|
        ensures Related(Accept(caseSensitive), needle[k], haystack[pos[k]]) <==> a[k] == b[pos[k]]
      {
        if !caseSensitive {
          ToLowerMatchesLowerNeedle(needle[k], haystack[pos[k]]);
        }
      }
    }
  }

  /** The pre-filter is exact for the scorer when the search is case-sensitive or
      the needle has no upper-case letter: no match means the sentinel score, and
      a match on a non-empty needle and a haystack within the length limit means a
      finite score. */
  lemma HasMatchAgreesWithScore(needle: seq<char>, haystack: seq<char>, caseSensitive: bool, bonus: BonusFn)
    requires caseSensitive || NoUpper(needle)
    ensures !HasMatch(needle, haystack, caseSensitive) ==> ReferenceScore(needle, haystack, caseSensitive, bonus) == NegInf
    ensures HasMatch(needle, haystack, caseSensitive) && 0 < |needle| && |haystack| <= MATCH_MAX_LEN ==>
              ReferenceScore(needle, haystack, caseSensitive, bonus).Fin?
  {
    var a, b := FoldAll(needle, caseSensitive), FoldAll(haystack, caseSensitive);
    HasMatchIffEmbeds(needle, haystack, caseSensitive);
    ScoreFiniteIffSubsequence(needle, haystack, caseSensitive, bonus);
    if Embeds(a, b, Exact) {
      var pos :| IsEmbedding(a, b, pos, Exact);
      AcceptAgreesWithFolding(needle, haystack, caseSensitive, pos);
    }
    if Embeds(needle, haystack, Accept(caseSensitive)) {
      var pos :| IsEmbedding(needle, haystack, pos, Accept(caseSensitive));
      AcceptAgreesWithFolding(needle, haystack, caseSensitive, pos);
    }
  }

  /** Without that condition the two disagree: `has_match("A", "a")` (case-insensitive)
      only accepts 'A', yet `match` lower-cases both strings and scores the pair. */
  lemma UpperCaseNeedleEscapesPrefilter(bonus: BonusFn)
    ensures !HasMatch("A", "a", false)
    ensures ReferenceScore("A", "a", false, bonus).Fin?
  {
    assert FindFirst("a", 'A', false) == None by {
      assert !Related(Accept(false), 'A', 'a');
      assert FindFirst("a"[1..], 'A', false) == None;
    }
    var ms := Prepare("A", "a", false, bonus);
    assert ms.needle[0] == 'a' && ms.haystack[0] == 'a';
    assert D(ms, 0, 0).Fin?;
  }
}

=== FILE: linked_list.dfy ===
/**
 * The ranked list of src/telescope.c at the level of its pointers.
 *
 * Nodes live in an arena `nodes`; a pointer is the index of a node in the arena
 * (`None` is NULL) and `create_node` allocates the next free slot. Every
 * operation performs the writes of the C function in the same order, so a
 * pointer read after a write sees that write.
 */
module LinkedList {
  import opened Wrappers
  import RL = RankedList

  type Ptr = Option<nat>

  datatype Node = Node(item: int, next: Ptr, prev: Ptr)

  datatype List = List(nodes: seq<Node>, head: Ptr, tail: Ptr, tracked: Ptr, len: nat, trackAt: RL.SizeT)

  predicate ValidPtr(nodes: seq<Node>, p: Ptr) {
    p.Some? ==> p.value < |nodes|
  }

  /** Every pointer stored in the list or in a node points into the arena. */
  predicate NoDangling(l: List) {
    && ValidPtr(l.nodes, l.head) && ValidPtr(l.nodes, l.tail) && ValidPtr(l.nodes, l.tracked)
    && forall x :: 0 <= x < |l.nodes| ==> ValidPtr(l.nodes, l.nodes[x].next) && ValidPtr(l.nodes, l.nodes[x].prev)
  }

  /** `++list->len` does not wrap. */
  predicate HasRoom(l: List) {
    l.len < RL.SIZE_MAX
  }

  /** `create_node`: a fresh slot holding `item` with NULL links. */
  function CreateNode(nodes: seq<Node>, item: int): (r: (seq<Node>, nat))
    ensures r.1 == |nodes| && r.0 == nodes + [Node(item, None, None)]
  {
    (nodes + [Node(item, None, None)], |nodes|)
  }

  /** `fzf_list_create`. */
  function Create(trackAt: RL.SizeT): (l: List)
    ensures l.len == 0 && l.head == None && l.tail == None && l.tracked == None && l.trackAt == trackAt
    ensures NoDangling(l)
  {
    List([], None, None, None, 0, trackAt)
  }

  /** `fzf_list_append`, returning the list and the new node. */
  function Append(l: List, item: int): (r: (List, nat))
    requires NoDangling(l) && HasRoom(l)
    ensures r.0.len == l.len + 1 && r.0.trackAt == l.trackAt && NoDangling(r.0)
    ensures r.1 == |l.nodes| && |r.0.nodes| == |l.nodes| + 1 && r.0.nodes[r.1].item == item
    ensures forall x :: 0 <= x < |l.nodes| ==> r.0.nodes[x].item == l.nodes[x].item
    ensures r.0.head == if l.head == None then Some(r.1) else l.head
    ensures r.0.tail == Some(r.1)
  {
    var len := l.len + 1;
    var (nodes1, node) := CreateNode(l.nodes, item);
    var head := if l.head == None then Some(node) else l.head;
    var nodes2 := if l.tail.Some? then nodes1[l.tail.value := nodes1[l.tail.value].(next := Some(node))] else nodes1;
    var nodes3 := if l.tail.Some? then nodes2[node := nodes2[node].(prev := l.tail)] else nodes2;
    var tracked := if len == l.trackAt then Some(node) else l.tracked;
    (List(nodes3, head, Some(node), tracked, len, l.trackAt), node)
  }

  /** The cursor rule shared by prepend and the placements once the node is
      linked in: the tail when `len` just reached `track_at`, the tracked node's
      `prev` when `len` is past it (crashing on NULL), else unchanged. */
  function ShiftCursor(l: List, nodes: seq<Node>, tail: Ptr, len: nat): (r: Result<Ptr, RL.Fault>)
    requires ValidPtr(nodes, l.tracked)
  {
    if len == l.trackAt then Success(tail)
    else if len > l.trackAt then
      match l.tracked
      case None => Failure(RL.NullDereference)
      case Some(t) => Success(nodes[t].prev)
    else Success(l.tracked)
  }

  /** The link updates of `fzf_list_prepend` for the fresh node `newNode`,
      returning the nodes and the new tail. */
  function LinkFirst(l: List, nodes1: seq<Node>, newNode: nat): (r: (seq<Node>, Ptr))
    requires NoDangling(l) && newNode == |l.nodes| && |nodes1| == |l.nodes| + 1
    requires forall x :: 0 <= x < |l.nodes| ==> nodes1[x] == l.nodes[x]
    requires ValidPtr(nodes1, nodes1[newNode].next) && ValidPtr(nodes1, nodes1[newNode].prev)
    ensures |r.0| == |nodes1|
    ensures forall x :: 0 <= x < |r.0| ==> ValidPtr(r.0, r.0[x].next) && ValidPtr(r.0, r.0[x].prev)
    ensures r.1 == if l.tail == None then Some(newNode) else l.tail
  {
    var tail := if l.tail == None then Some(newNode) else l.tail;
    var nodes2 := if l.head.Some? then nodes1[l.head.value := nodes1[l.head.value].(prev := Some(newNode))] else nodes1;
    var nodes3 := if l.head.Some? then nodes2[newNode := nodes2[newNode].(next := l.head)] else nodes2;
    (nodes3, tail)
  }

  /** `fzf_list_prepend`. */
  function Prepend(l: List, item: int): (r: Result<List, RL.Fault>)
    requires NoDangling(l) && HasRoom(l)
    ensures r.Success? ==> r.value.len == l.len + 1 && r.value.trackAt == l.trackAt && NoDangling(r.value)
    ensures r.Success? ==> |r.value.nodes| == |l.nodes| + 1 && r.value.nodes[|l.nodes|].item == item
    ensures r.Success? ==> forall x :: 0 <= x < |l.nodes| ==> r.value.nodes[x].item == l.nodes[x].item
    ensures r.Success? ==> r.value.head == Some(|l.nodes|)
    ensures r.Success? ==> r.value.tail == if l.tail == None then Some(|l.nodes|) else l.tail
  {
    var len := l.len + 1;
    var (nodes1, node) := CreateNode(l.nodes, item);
    var (nodes, tail) := LinkFirst(l, nodes1, node);
    match ShiftCursor(l, nodes, tail, len)
    case Failure(e) => Failure(e)
    case Success(tracked) => Success(List(nodes, Some(node), tail, tracked, len, l.trackAt))
  }

  /** The debug assertions `node->prev != node` and `node->next != node`. */
  predicate NotSelfLinked(nodes: seq<Node>, node: nat)
    requires node < |nodes|
  {
    nodes[node].prev != Some(node) && nodes[node].next != Some(node)
  }

  /** The link updates of `fzf_list_place_after` for the fresh node `newNode`
      (the last arena slot), returning the nodes and the new tail. */
  function LinkAfter(l: List, nodes1: seq<Node>, node: nat, newNode: nat): (r: (seq<Node>, Ptr))
    requires NoDangling(l) && node < |l.nodes| && newNode == |l.nodes| && |nodes1| == |l.nodes| + 1
    requires forall x :: 0 <= x < |l.nodes| ==> nodes1[x] == l.nodes[x]
    requires ValidPtr(nodes1, nodes1[newNode].next) && ValidPtr(nodes1, nodes1[newNode].prev)
    ensures |r.0| == |nodes1|
    ensures forall x :: 0 <= x < |r.0| ==> ValidPtr(r.0, r.0[x].next) && ValidPtr(r.0, r.0[x].prev)
    ensures r.1 == if l.tail == Some(node) then Some(newNode) else l.tail
  {
    var tail := if l.tail == Some(node) then Some(newNode) else l.tail;
    var nodes2 := nodes1[newNode := nodes1[newNode].(prev := Some(node))];
    var nodes3 := nodes2[newNode := nodes2[newNode].(next := nodes2[node].next)];
    var nodes4 := nodes3[node := nodes3[node].(next := Some(newNode))];
    var nodes5 := match nodes4[newNode].prev
      case Some(p) => nodes4[p := nodes4[p].(next := Some(newNode))]
      case None => nodes4;
    var nodes6 := match nodes5[newNode].next
      case Some(q) => nodes5[q := nodes5[q].(prev := Some(newNode))]
      case None => nodes5;
    (nodes6, tail)
  }

  /** `fzf_list_place_after`. */
  function PlaceAfter(l: List, index: RL.SizeT, node: nat, item: int): (r: Result<List, RL.Fault>)
    requires NoDangling(l) && HasRoom(l) && node < |l.nodes|
    ensures r.Success? ==> r.value.len == l.len + 1 && r.value.trackAt == l.trackAt && NoDangling(r.value)
    ensures r.Success? ==> |r.value.nodes| == |l.nodes| + 1 && r.value.nodes[|l.nodes|].item == item
    ensures r.Success? ==> r.value.head == l.head
    ensures r.Success? ==> r.value.tail == if l.tail == Some(node) then Some(|l.nodes|) else l.tail
    ensures r == Failure(RL.AssertionFailure) <==> !NotSelfLinked(l.nodes, node)
  {
    var len := l.len + 1;
    var (nodes1, newNode) := CreateNode(l.nodes, item);
    if !NotSelfLinked(nodes1, node) then Failure(RL.AssertionFailure)
    else
      var (nodes, tail) := LinkAfter(l, nodes1, node, newNode);
      var cursor :=
        if index == l.trackAt then Success(Some(newNode))
        else if index < l.trackAt then ShiftCursor(l, nodes, tail, len)
        else Success(l.tracked);
      match cursor
      case Failure(e) => Failure(e)
      case Success(tracked) => Success(List(nodes, l.head, tail, tracked, len, l.trackAt))
  }

  /** The link updates of `fzf_list_place_before`, returning the nodes and the new head. */
  function LinkBefore(l: List, nodes1: seq<Node>, node: nat, newNode: nat): (r: (seq<Node>, Ptr))
    requires NoDangling(l) && node < |l.nodes| && newNode == |l.nodes| && |nodes1| == |l.nodes| + 1
    requires forall x :: 0 <= x < |l.nodes| ==> nodes1[x] == l.nodes[x]
    requires ValidPtr(nodes1, nodes1[newNode].next) && ValidPtr(nodes1, nodes1[newNode].prev)
    ensures |r.0| == |nodes1|
    ensures forall x :: 0 <= x < |r.0| ==> ValidPtr(r.0, r.0[x].next) && ValidPtr(r.0, r.0[x].prev)
    ensures r.1 == if l.head == Some(node) then Some(newNode) else l.head
  {
    var head := if l.head == Some(node) then Some(newNode) else l.head;
    var nodes2 := nodes1[newNode := nodes1[newNode].(prev := nodes1[node].prev)];
    var nodes3 := nodes2[newNode := nodes2[newNode].(next := Some(node))];
    var nodes4 := nodes3[node := nodes3[node].(prev := Some(newNode))];
    var nodes5 := match nodes4[newNode].prev
      case Some(p) => nodes4[p := nodes4[p].(next := Some(newNode))]
      case None => nodes4;
    var nodes6 := match nodes5[newNode].next
      case Some(q) => nodes5[q := nodes5[q].(prev := Some(newNode))]
      case None => nodes5;
    (nodes6, head)
  }

  /** `fzf_list_place_before` as written. */
  function PlaceBefore(l: List, index: RL.SizeT, node: nat, item: int): (r: Result<List, RL.Fault>)
    requires NoDangling(l) && HasRoom(l) && node < |l.nodes|
    ensures r.Success? ==> r.value.len == l.len + 1 && r.value.trackAt == l.trackAt && NoDangling(r.value)
    ensures r.Success? ==> |r.value.nodes| == |l.nodes| + 1 && r.value.nodes[|l.nodes|].item == item
    ensures r.Success? ==> r.value.tail == l.tail
    ensures r.Success? ==> r.value.head == if l.head == Some(node) then Some(|l.nodes|) else l.head
    ensures r == Failure(RL.AssertionFailure) <==> !NotSelfLinked(l.nodes, node)
  {
    var len := l.len + 1;
    var (nodes1, newNode) := CreateNode(l.nodes, item);
    if !NotSelfLinked(nodes1, node) then Failure(RL.AssertionFailure)
    else
      var (nodes, head) := LinkBefore(l, nodes1, node, newNode);
      var cursor :=
        if index == RL.TrackAtMinusOne(l.trackAt) then Success(Some(node))
        else if index < l.trackAt then ShiftCursor(l, nodes, l.tail, len)
        else Success(l.tracked);
      match cursor
      case Failure(e) => Failure(e)
      case Success(tracked) => Success(List(nodes, head, l.tail, tracked, len, l.trackAt))
  }

  /** `fzf_list_place_before` with the cursor rule of `fzf_list_place_after`. */
  function PlaceBeforeFixed(l: List, index: RL.SizeT, node: nat, item: int): (r: Result<List, RL.Fault>)
    requires NoDangling(l) && HasRoom(l) && node < |l.nodes|
    ensures r.Success? ==> r.value.len == l.len + 1 && r.value.trackAt == l.trackAt && NoDangling(r.value)
    ensures r.Success? ==> |r.value.nodes| == |l.nodes| + 1 && r.value.nodes[|l.nodes|].item == item
    ensures r.Success? ==> r.value.tail == l.tail
    ensures r.Success? ==> r.value.head == if l.head == Some(node) then Some(|l.nodes|) else l.head
    ensures r == Failure(RL.AssertionFailure) <==> !NotSelfLinked(l.nodes, node)
  {
    var len := l.len + 1;
    var (nodes1, newNode) := CreateNode(l.nodes, item);
    if !NotSelfLinked(nodes1, node) then Failure(RL.AssertionFailure)
    else
      var (nodes, head) := LinkBefore(l, nodes1, node, newNode);
      var cursor :=
        if index == l.trackAt then Success(Some(newNode))
        else if index < l.trackAt then ShiftCursor(l, nodes, l.tail, len)
        else Success(l.tracked);
      match cursor
      case Failure(e) => Failure(e)
      case Success(tracked) => Success(List(nodes, head, l.tail, tracked, len, l.trackAt))
  }
}

=== FILE: list_refinement.dfy ===
/**
 * The arena model of src/telescope.c implements the sequence view.
 *
 * `order` lists the arena slots of the nodes from head to tail. `Represents`
 * ties a pointer-level list to a sequence-level one: the `prev`/`next` links
 * follow `order`, head and tail are its ends, the items read along `order` are
 * the sequence, and the tracked pointer is the node at the sequence cursor.
 * Each operation on a represented list succeeds or crashes exactly when its
 * sequence-level counterpart does, and the results are represented again.
 */
module ListRefinement {
  import opened Wrappers
  import RL = RankedList
  import LL = LinkedList

  function PrevIn(order: seq<nat>, k: nat): LL.Ptr
    requires k < |order|
  {
    if k == 0 then None else Some(order[k - 1])
  }

  function NextIn(order: seq<nat>, k: nat): LL.Ptr
    requires k < |order|
  {
    if k + 1 == |order| then None else Some(order[k + 1])
  }

  function First(order: seq<nat>): LL.Ptr {
    if |order| == 0 then None else Some(order[0])
  }

  function Last(order: seq<nat>): LL.Ptr {
    if |order| == 0 then None else Some(order[|order| - 1])
  }

  predicate InArena(nodes: seq<LL.Node>, order: seq<nat>) {
    forall k :: 0 <= k < |order| ==> order[k] < |nodes|
  }

  /** The node at index `k` of `order` links to its neighbours in `order`. */
  ghost predicate LinkedAt(nodes: seq<LL.Node>, order: seq<nat>, k: nat)
    requires InArena(nodes, order) && k < |order|
  {
    nodes[order[k]].prev == PrevIn(order, k) && nodes[order[k]].next == NextIn(order, k)
  }

  /** `order` is a list of distinct arena slots doubly linked in that order. */
  ghost predicate LinkedAs(nodes: seq<LL.Node>, order: seq<nat>) {
    && InArena(nodes, order)
    && (forall k, k' :: 0 <= k < k' < |order| ==> order[k] != order[k'])
    && (forall k :: 0 <= k < |order| ==> LinkedAt(nodes, order, k))
  }

  /** The items met walking `order`. */
  function ItemsOf(nodes: seq<LL.Node>, order: seq<nat>): (r: seq<int>)
    requires InArena(nodes, order)
    ensures |r| == |order| && forall k {:trigger r[k]} :: 0 <= k < |order| ==> r[k] == nodes[order[k]].item
  {
    seq(|order|, k requires 0 <= k < |order| => nodes[order[k]].item)
  }

  /** The pointer to the node at index `t` of `order`. */
  function TrackedPtr(order: seq<nat>, t: Option<nat>): LL.Ptr {
    match t
    case None => None
    case Some(k) => if k < |order| then Some(order[k]) else None
  }

  /** The pointers of `l` form the doubly linked list `order`, from `head` to `tail`. */
  ghost predicate Shaped(l: LL.List, order: seq<nat>) {
    && LL.NoDangling(l) && LinkedAs(l.nodes, order)
    && l.len == |order| && l.head == First(order) && l.tail == Last(order)
  }

  ghost predicate Represents(l: LL.List, order: seq<nat>, r: RL.RankedList) {
    && Shaped(l, order)
    && RL.WellFormed(r) && r.items == ItemsOf(l.nodes, order) && r.trackAt == l.trackAt
    && l.tracked == TrackedPtr(order, r.tracked)
  }

  /** The arena after the fresh slot |nodes| holding `item` is linked in at index `p`
      of `order`: its neighbours point at it and nothing else changed. */
  ghost predicate SplicedIn(nodes: seq<LL.Node>, nodes': seq<LL.Node>, order: seq<nat>, p: nat, item: int)
    requires InArena(nodes, order) && p <= |order|
  {
    var n := |nodes|;
    && |nodes'| == n + 1
    && nodes'[n] == LL.Node(item, if p < |order| then Some(order[p]) else None, if 0 < p then Some(order[p - 1]) else None)
    && (0 < p ==> nodes'[order[p - 1]] == nodes[order[p - 1]].(next := Some(n)))
    && (p < |order| ==> nodes'[order[p]] == nodes[order[p]].(prev := Some(n)))
    && (forall x :: 0 <= x < n && (p == 0 || x != order[p - 1]) && (p == |order| || x != order[p]) ==> nodes'[x] == nodes[x])
  }

  /** The element at index `k` after inserting `x` at `p`. */
  lemma InsertIndex<T>(s: seq<T>, p: nat, x: T, k: nat)
    requires p <= |s| && k <= |s|
    ensures RL.Insert(s, p, x)[k] == if k < p then s[k] else if k == p then x else s[k - 1]
  {
  }

  /** Inserting a slot not yet in `order` keeps the slots distinct. */
  lemma InsertDistinct(nodes: seq<LL.Node>, nodes': seq<LL.Node>, order: seq<nat>, p: nat)
    requires LinkedAs(nodes, order) && p <= |order| && |nodes'| == |nodes| + 1
    ensures InArena(nodes', RL.Insert(order, p, |nodes|))
    ensures forall k, k' :: 0 <= k < k' < |order| + 1 ==> RL.Insert(order, p, |nodes|)[k] != RL.Insert(order, p, |nodes|)[k']
  {
    var order' := RL.Insert(order, p, |nodes|);
    forall k | 0 <= k < |order'| ensures order'[k] < |nodes'| {
      InsertIndex(order, p, |nodes|, k);
    }
    forall k, k' | 0 <= k < k' < |order'| ensures order'[k] != order'[k'] {
      InsertIndex(order, p, |nodes|, k);
      InsertIndex(order, p, |nodes|, k');
    }
  }

  /** `order'` is `order` with the slot `n` inserted at index `p`. */
  predicate InsertedAt(order: seq<nat>, order': seq<nat>, p: nat, n: nat) {
    && p <= |order| && |order'| == |order| + 1
    && forall k {:trigger order'[k]} :: 0 <= k < |order'| ==> order'[k] == if k < p then order[k] else if k == p then n else order[k - 1]
  }

  lemma InsertIsInsertedAt(order: seq<nat>, p: nat, n: nat)
    requires p <= |order|
    ensures InsertedAt(order, RL.Insert(order, p, n), p, n)
  {
    forall k | 0 <= k < |order| + 1 { InsertIndex(order, p, n, k); }
  }

  /** The inserted order stays inside the grown arena. */
  lemma InsertedInArena(nodes: seq<LL.Node>, nodes': seq<LL.Node>, order: seq<nat>, order': seq<nat>, p: nat)
    requires InArena(nodes, order) && InsertedAt(order, order', p, |nodes|) && |nodes'| == |nodes| + 1
    ensures InArena(nodes', order')
  {
    forall k | 0 <= k < |order'| ensures order'[k] < |nodes'| {
      assert order'[k] == if k < p then order[k] else if k == p then |nodes| else order[k - 1];
    }
  }

  /** The fresh node sits between the nodes at indexes p - 1 and p. */
  lemma SpliceLinksAtNew(nodes: seq<LL.Node>, nodes': seq<LL.Node>, order: seq<nat>, order': seq<nat>, p: nat, item: int)
    requires LinkedAs(nodes, order) && p <= |order| && SplicedIn(nodes, nodes', order, p, item)
    requires InsertedAt(order, order', p, |nodes|)
    ensures order'[p] == |nodes| && nodes'[|nodes|].item == item
    ensures InArena(nodes', order') && LinkedAt(nodes', order', p)
  {
    InsertedInArena(nodes, nodes', order, order', p);
    assert order'[p] == |nodes|;
    if 0 < p { assert order'[p - 1] == order[p - 1]; }
    if p < |order| { assert order'[p + 1] == order[p]; }
  }

  /** A node before the insertion point keeps its links, except that its
      successor becomes the fresh node when it is the last one before it. */
  lemma SpliceLinksBefore(nodes: seq<LL.Node>, nodes': seq<LL.Node>, order: seq<nat>, order': seq<nat>, p: nat, item: int, k: nat)
    requires LinkedAs(nodes, order) && p <= |order| && SplicedIn(nodes, nodes', order, p, item)
    requires InsertedAt(order, order', p, |nodes|)
    requires k < p
    ensures order'[k] == order[k] && nodes'[order'[k]].item == nodes[order[k]].item
    ensures InArena(nodes', order') && LinkedAt(nodes', order', k)
  {
    InsertedInArena(nodes, nodes', order, order', p);
    assert LinkedAt(nodes, order, k);
    var x := order[k];
    assert order'[k] == x;
    if k + 1 < p { assert x != order[p - 1]; assert order'[k + 1] == order[k + 1]; }
    else { assert order'[k + 1] == |nodes|; }
    if p < |order| { assert x != order[p]; }
    if 0 < k { assert order'[k - 1] == order[k - 1]; }
  }

  /** A node after the insertion point keeps its links, except that its
      predecessor becomes the fresh node when it is the first one after it. */
  lemma SpliceLinksAfter(nodes: seq<LL.Node>, nodes': seq<LL.Node>, order: seq<nat>, order': seq<nat>, p: nat, item: int, k: nat)
    requires LinkedAs(nodes, order) && p <= |order| && SplicedIn(nodes, nodes', order, p, item)
    requires InsertedAt(order, order', p, |nodes|)
    requires p < k < |order'|
    ensures order'[k] == order[k - 1] && nodes'[order'[k]].item == nodes[order[k - 1]].item
    ensures InArena(nodes', order') && LinkedAt(nodes', order', k)
  {
    InsertedInArena(nodes, nodes', order, order', p);
    assert LinkedAt(nodes, order, k - 1);
    var x := order[k - 1];
    assert order'[k] == x;
    if 0 < p { assert x != order[p - 1]; }
    if k == p + 1 { assert order'[k - 1] == |nodes|; }
    else { assert x != order[p]; assert order'[k - 1] == order[k - 2]; }
    if k + 1 < |order'| { assert order'[k + 1] == order[k]; }
  }

  /** The links of the node at index `k` of the inserted order. */
  lemma SpliceLinksAt(nodes: seq<LL.Node>, nodes': seq<LL.Node>, order: seq<nat>, order': seq<nat>, p: nat, item: int, k: nat)
    requires LinkedAs(nodes, order) && p <= |order| && SplicedIn(nodes, nodes', order, p, item)
    requires InsertedAt(order, order', p, |nodes|)
    requires k < |order'|
    ensures InArena(nodes', order') && LinkedAt(nodes', order', k)
    ensures nodes'[order'[k]].item == if k == p then item else nodes[order[if k < p then k else k - 1]].item
  {
    if k < p { SpliceLinksBefore(nodes, nodes', order, order', p, item, k); }
    else if k == p { SpliceLinksAtNew(nodes, nodes', order, order', p, item); }
    else { SpliceLinksAfter(nodes, nodes', order, order', p, item, k); }
  }

  /** Splicing a fresh node into a doubly linked list yields the doubly linked
      list of the inserted order. */
  lemma {:induction false} SpliceLinks(nodes: seq<LL.Node>, nodes': seq<LL.Node>, order: seq<nat>, p: nat, item: int)
    requires LinkedAs(nodes, order) && p <= |order| && SplicedIn(nodes, nodes', order, p, item)
    ensures LinkedAs(nodes', RL.Insert(order, p, |nodes|))
  {
    var order' := RL.Insert(order, p, |nodes|);
    InsertDistinct(nodes, nodes', order, p);
    InsertIsInsertedAt(order, p, |nodes|);
    forall k | 0 <= k < |order'| ensures LinkedAt(nodes', order', k) {
      SpliceLinksAt(nodes, nodes', order, order', p, item, k);
    }
  }

  /** Read along the inserted order, the spliced arena holds the inserted items. */
  lemma {:induction false} SpliceItems(nodes: seq<LL.Node>, nodes': seq<LL.Node>, order: seq<nat>, p: nat, item: int)
    requires LinkedAs(nodes, order) && p <= |order| && SplicedIn(nodes, nodes', order, p, item)
    ensures InArena(nodes', RL.Insert(order, p, |nodes|))
    ensures ItemsOf(nodes', RL.Insert(order, p, |nodes|)) == RL.Insert(ItemsOf(nodes, order), p, item)
  {
    var order' := RL.Insert(order, p, |nodes|);
    InsertDistinct(nodes, nodes', order, p);
    InsertIsInsertedAt(order, p, |nodes|);
    var items := ItemsOf(nodes, order);
    var items' := ItemsOf(nodes', order');
    var inserted := RL.Insert(items, p, item);
    forall k | 0 <= k < |order'| ensures items'[k] == inserted[k] {
      SpliceLinksAt(nodes, nodes', order, order', p, item, k);
      InsertIndex(items, p, item, k);
    }
    assert |items'| == |inserted|;
  }

  /** A pointer-level outcome matches a sequence-level one: both crash the same
      way, or both succeed with represented lists. */
  ghost predicate Simulates(a: Result<LL.List, RL.Fault>, order: seq<nat>, b: Result<RL.RankedList, RL.Fault>) {
    if a.Success? then b.Success? && Represents(a.value, order, b.value)
    else b.Failure? && a.error == b.error
  }

  /** The cursor and the tracked pointer still agree after a node is linked in
      at `p` and the cursor follows its node. */
  lemma FollowRefines(order: seq<nat>, n: nat, p: nat, t: Option<nat>)
    requires p <= |order| && (t.Some? ==> t.value < |order|)
    ensures TrackedPtr(RL.Insert(order, p, n), RL.Follow(t, p)) == TrackedPtr(order, t)
  {
    if t.Some? {
      assert RL.Insert(order, p, n)[RL.Shift(t.value, p)] == order[t.value];
    }
  }

  /** After a node is linked in at index `p`, the cursor rule on pointers
      (`_tracked_node->prev`, `tail`) computes the sequence-level cursor rule. */
  lemma ShiftCursorRefines(l: LL.List, order: seq<nat>, r: RL.RankedList, nodes': seq<LL.Node>, p: nat)
    requires p <= |order| && |nodes'| == |l.nodes| + 1 && InArena(l.nodes, order)
    requires RL.WellFormed(r) && |r.items| == |order| && r.trackAt == l.trackAt && l.tracked == TrackedPtr(order, r.tracked)
    requires LinkedAs(nodes', RL.Insert(order, p, |l.nodes|))
    ensures LL.ShiftCursor(l, nodes', Last(RL.Insert(order, p, |l.nodes|)), |order| + 1).Failure?
      <==> RL.CursorShift(r, p, |order| + 1).Failure?
    ensures LL.ShiftCursor(l, nodes', Last(RL.Insert(order, p, |l.nodes|)), |order| + 1).Failure?
      ==> LL.ShiftCursor(l, nodes', Last(RL.Insert(order, p, |l.nodes|)), |order| + 1).error == RL.CursorShift(r, p, |order| + 1).error
    ensures LL.ShiftCursor(l, nodes', Last(RL.Insert(order, p, |l.nodes|)), |order| + 1).Success?
      ==> LL.ShiftCursor(l, nodes', Last(RL.Insert(order, p, |l.nodes|)), |order| + 1).value
          == TrackedPtr(RL.Insert(order, p, |l.nodes|), RL.CursorShift(r, p, |order| + 1).value)
  {
    var order' := RL.Insert(order, p, |l.nodes|);
    var len := |order| + 1;
    var a := LL.ShiftCursor(l, nodes', Last(order'), len);
    var b := RL.CursorShift(r, p, len);
    if len == l.trackAt {
      assert a == Success(Last(order'));
      assert b == Success(Some(len - 1));
    } else if len > l.trackAt {
      if r.tracked.Some? {
        var t := r.tracked.value;
        var s := RL.Shift(t, p);
        assert order'[s] == order[t];
        assert l.tracked == Some(order'[s]);
        assert LinkedAt(nodes', order', s);
        assert a == Success(PrevIn(order', s));
        assert b == Success(RL.PrevOf(s));
      } else {
        assert l.tracked == None;
      }
    } else {
      FollowRefines(order, |l.nodes|, p, r.tracked);
    }
  }

  lemma CreateRefines(trackAt: RL.SizeT)
    ensures Represents(LL.Create(trackAt), [], RL.Create(trackAt))
  {
  }

  /** The links `fzf_list_append` writes splice the new node in after the tail. */
  lemma AppendSplices(l: LL.List, order: seq<nat>, r: RL.RankedList, item: int)
    requires Represents(l, order, r) && LL.HasRoom(l)
    ensures SplicedIn(l.nodes, LL.Append(l, item).0.nodes, order, |order|, item)
  {
    var nodes' := LL.Append(l, item).0.nodes;
    var n := |l.nodes|;
    if 0 < |order| {
      var t := order[|order| - 1];
      assert LinkedAt(l.nodes, order, |order| - 1);
      assert nodes'[t] == l.nodes[t].(next := Some(n));
    }
  }

  lemma AppendLinks(l: LL.List, order: seq<nat>, r: RL.RankedList, item: int)
    requires Represents(l, order, r) && LL.HasRoom(l)
    ensures LinkedAs(LL.Append(l, item).0.nodes, order + [|l.nodes|])
  {
    assert RL.Insert(order, |order|, |l.nodes|) == order + [|l.nodes|];
    AppendSplices(l, order, r, item);
    SpliceLinks(l.nodes, LL.Append(l, item).0.nodes, order, |order|, item);
  }

  lemma AppendItems(l: LL.List, order: seq<nat>, r: RL.RankedList, item: int)
    requires Represents(l, order, r) && LL.HasRoom(l)
    ensures InArena(LL.Append(l, item).0.nodes, order + [|l.nodes|])
    ensures RL.Append(r, item).items == ItemsOf(LL.Append(l, item).0.nodes, order + [|l.nodes|])
  {
    assert RL.Insert(order, |order|, |l.nodes|) == order + [|l.nodes|];
    assert RL.Insert(r.items, |order|, item) == r.items + [item];
    AppendSplices(l, order, r, item);
    SpliceItems(l.nodes, LL.Append(l, item).0.nodes, order, |order|, item);
  }

  lemma AppendCursor(l: LL.List, order: seq<nat>, r: RL.RankedList, item: int)
    requires Represents(l, order, r) && LL.HasRoom(l)
    ensures LL.Append(l, item).0.tracked == TrackedPtr(order + [|l.nodes|], RL.Append(r, item).tracked)
  {
    assert RL.Insert(order, |order|, |l.nodes|) == order + [|l.nodes|];
    FollowRefines(order, |l.nodes|, |order|, r.tracked);
  }

  /** `fzf_list_append` implements the sequence-level append. */
  lemma AppendRefines(l: LL.List, order: seq<nat>, r: RL.RankedList, item: int)
    requires Represents(l, order, r) && LL.HasRoom(l)
    ensures RL.HasRoom(r) && LL.Append(l, item).1 == |l.nodes|
    ensures Represents(LL.Append(l, item).0, order + [|l.nodes|], RL.Append(r, item))
  {
    AppendLinks(l, order, r, item);
    AppendItems(l, order, r, item);
    AppendCursor(l, order, r, item);
  }

  /** The ends of an order after an insertion. */
  lemma InsertEnds(order: seq<nat>, p: nat, n: nat)
    requires p <= |order|
    ensures First(RL.Insert(order, p, n)) == if p == 0 then Some(n) else First(order)
    ensures Last(RL.Insert(order, p, n)) == if p == |order| then Some(n) else Last(order)
  {
    InsertIndex(order, p, n, 0);
    InsertIndex(order, p, n, |order|);
  }

  /** A list whose arena is the old one with a node spliced in at `p`, and
      whose ends, length and cursor agree with the inserted order, represents
      the sequence with the item inserted at `p`. */
  lemma RepresentsAfterInsert(l: LL.List, order: seq<nat>, r: RL.RankedList, p: nat, item: int, a: LL.List, b: RL.RankedList)
    requires Represents(l, order, r) && p <= |order|
    requires SplicedIn(l.nodes, a.nodes, order, p, item)
    requires LL.NoDangling(a) && a.len == l.len + 1 && a.trackAt == l.trackAt
    requires a.head == First(RL.Insert(order, p, |l.nodes|)) && a.tail == Last(RL.Insert(order, p, |l.nodes|))
    requires b.items == RL.Insert(r.items, p, item) && b.trackAt == r.trackAt && RL.WellFormed(b)
    requires a.tracked == TrackedPtr(RL.Insert(order, p, |l.nodes|), b.tracked)
    ensures Represents(a, RL.Insert(order, p, |l.nodes|), b)
  {
    SpliceLinks(l.nodes, a.nodes, order, p, item);
    SpliceItems(l.nodes, a.nodes, order, p, item);
  }

  /** The links `fzf_list_prepend` writes splice the new node in before the head. */
  lemma PrependSplices(l: LL.List, order: seq<nat>, item: int)
    requires Shaped(l, order)
    ensures var lk := LL.LinkFirst(l, l.nodes + [LL.Node(item, None, None)], |l.nodes|);
      SplicedIn(l.nodes, lk.0, order, 0, item) && lk.1 == if |order| == 0 then Some(|l.nodes|) else Last(order)
  {
    var n := |l.nodes|;
    var nodes' := LL.LinkFirst(l, l.nodes + [LL.Node(item, None, None)], n).0;
    if 0 < |order| {
      var h := order[0];
      assert LinkedAt(l.nodes, order, 0);
      assert nodes'[h] == l.nodes[h].(prev := Some(n));
    }
  }

  /** Prepend crashes exactly when its sequence-level counterpart does; when it
      does not, the cursors agree and the new node is spliced in at the front. */
  lemma PrependOutcome(l: LL.List, order: seq<nat>, r: RL.RankedList, item: int)
    requires Represents(l, order, r) && LL.HasRoom(l)
    ensures RL.HasRoom(r)
    ensures LL.Prepend(l, item).Success? <==> RL.Prepend(r, item).Success?
    ensures LL.Prepend(l, item).Failure? ==> LL.Prepend(l, item).error == RL.Prepend(r, item).error
    ensures LL.Prepend(l, item).Success? ==>
      && SplicedIn(l.nodes, LL.Prepend(l, item).value.nodes, order, 0, item)
      && LL.Prepend(l, item).value.tracked == TrackedPtr(RL.Insert(order, 0, |l.nodes|), RL.Prepend(r, item).value.tracked)
  {
    var n := |l.nodes|;
    var lk := LL.LinkFirst(l, l.nodes + [LL.Node(item, None, None)], n);
    PrependSplices(l, order, item);
    InsertEnds(order, 0, n);
    SpliceLinks(l.nodes, lk.0, order, 0, item);
    ShiftCursorRefines(l, order, r, lk.0, 0);
  }

  /** `fzf_list_prepend` implements the sequence-level prepend, crashes included. */
  lemma PrependRefines(l: LL.List, order: seq<nat>, r: RL.RankedList, item: int)
    requires Represents(l, order, r) && LL.HasRoom(l)
    ensures RL.HasRoom(r)
    ensures Simulates(LL.Prepend(l, item), [|l.nodes|] + order, RL.Prepend(r, item))
  {
    var n := |l.nodes|;
    assert RL.Insert(order, 0, n) == [n] + order;
    PrependOutcome(l, order, r, item);
    InsertEnds(order, 0, n);
    var a := LL.Prepend(l, item);
    if a.Success? {
      RepresentsAfterInsert(l, order, r, 0, item, a.value, RL.Prepend(r, item).value);
    }
  }

  /** The links `fzf_list_place_after` writes splice the new node in after `node`. */
  lemma PlaceAfterSplices(l: LL.List, order: seq<nat>, at: nat, item: int)
    requires Shaped(l, order) && at < |order|
    ensures LL.NotSelfLinked(l.nodes, order[at])
    ensures l.tail == Some(order[at]) <==> at + 1 == |order|
    ensures var lk := LL.LinkAfter(l, l.nodes + [LL.Node(item, None, None)], order[at], |l.nodes|);
      SplicedIn(l.nodes, lk.0, order, at + 1, item) && lk.1 == if at + 1 == |order| then Some(|l.nodes|) else Last(order)
  {
    var n := |l.nodes|;
    var node := order[at];
    assert LinkedAt(l.nodes, order, at);
    if 0 < at { assert order[at - 1] != node; }
    if at + 1 < |order| { assert order[at + 1] != node; }
    var nodes' := LL.LinkAfter(l, l.nodes + [LL.Node(item, None, None)], node, n).0;
    if at + 1 < |order| {
      var q := order[at + 1];
      assert nodes'[q] == l.nodes[q].(prev := Some(n));
      assert order[|order| - 1] != node;
    }
    assert nodes'[node] == l.nodes[node].(next := Some(n));
  }

  /** Place-after on the node at index `at` crashes exactly when its
      sequence-level counterpart does; when it does not, the cursors agree and
      the new node is spliced in at index at + 1. */
  lemma PlaceAfterOutcome(l: LL.List, order: seq<nat>, r: RL.RankedList, index: RL.SizeT, at: nat, item: int)
    requires Represents(l, order, r) && LL.HasRoom(l) && at < |order|
    ensures RL.HasRoom(r)
    ensures LL.PlaceAfter(l, index, order[at], item).Success? <==> RL.PlaceAfter(r, index, at, item).Success?
    ensures LL.PlaceAfter(l, index, order[at], item).Failure? ==>
      LL.PlaceAfter(l, index, order[at], item).error == RL.PlaceAfter(r, index, at, item).error
    ensures LL.PlaceAfter(l, index, order[at], item).Success? ==>
      && SplicedIn(l.nodes, LL.PlaceAfter(l, index, order[at], item).value.nodes, order, at + 1, item)
      && LL.PlaceAfter(l, index, order[at], item).value.tracked
         == TrackedPtr(RL.Insert(order, at + 1, |l.nodes|), RL.PlaceAfter(r, index, at, item).value.tracked)
  {
    PlaceAfterFaults(l, order, r, index, at, item);
    PlaceAfterTracks(l, order, r, index, at, item);
  }

  /** The crash half of `PlaceAfterOutcome`. */
  lemma PlaceAfterFaults(l: LL.List, order: seq<nat>, r: RL.RankedList, index: RL.SizeT, at: nat, item: int)
    requires Represents(l, order, r) && LL.HasRoom(l) && at < |order|
    ensures RL.HasRoom(r)
    ensures LL.PlaceAfter(l, index, order[at], item).Success? <==> RL.PlaceAfter(r, index, at, item).Success?
    ensures LL.PlaceAfter(l, index, order[at], item).Failure? ==>
      LL.PlaceAfter(l, index, order[at], item).error == RL.PlaceAfter(r, index, at, item).error
  {
    var n := |l.nodes|;
    var order' := RL.Insert(order, at + 1, n);
    var lk := LL.LinkAfter(l, l.nodes + [LL.Node(item, None, None)], order[at], n);
    PlaceAfterSplices(l, order, at, item);
    InsertEnds(order, at + 1, n);
    assert lk.1 == Last(order');
    if index == l.trackAt {
      assert order'[at + 1] == n;
    } else if index < l.trackAt {
      SpliceLinks(l.nodes, lk.0, order, at + 1, item);
      ShiftCursorRefines(l, order, r, lk.0, at + 1);
    } else {
      FollowRefines(order, n, at + 1, r.tracked);
    }
  }

  /** The success half of `PlaceAfterOutcome`. */
  lemma PlaceAfterTracks(l: LL.List, order: seq<nat>, r: RL.RankedList, index: RL.SizeT, at: nat, item: int)
    requires Represents(l, order, r) && LL.HasRoom(l) && at < |order|
    ensures RL.HasRoom(r)
    ensures LL.PlaceAfter(l, index, order[at], item).Success? && RL.PlaceAfter(r, index, at, item).Success? ==>
      && SplicedIn(l.nodes, LL.PlaceAfter(l, index, order[at], item).value.nodes, order, at + 1, item)
      && LL.PlaceAfter(l, index, order[at], item).value.tracked
         == TrackedPtr(RL.Insert(order, at + 1, |l.nodes|), RL.PlaceAfter(r, index, at, item).value.tracked)
  {
    var n := |l.nodes|;
    var order' := RL.Insert(order, at + 1, n);
    var lk := LL.LinkAfter(l, l.nodes + [LL.Node(item, None, None)], order[at], n);
    PlaceAfterSplices(l, order, at, item);
    InsertEnds(order, at + 1, n);
    assert lk.1 == Last(order');
    if index == l.trackAt {
      assert order'[at + 1] == n;
    } else if index < l.trackAt {
      SpliceLinks(l.nodes, lk.0, order, at + 1, item);
      ShiftCursorRefines(l, order, r, lk.0, at + 1);
    } else {
      FollowRefines(order, n, at + 1, r.tracked);
    }
  }

  /** `fzf_list_place_after` with `node` the node at index `at` implements the
      sequence-level placement after `at`. */
  lemma PlaceAfterRefines(l: LL.List, order: seq<nat>, r: RL.RankedList, index: RL.SizeT, at: nat, item: int)
    requires Represents(l, order, r) && LL.HasRoom(l) && at < |order|
    ensures RL.HasRoom(r)
    ensures Simulates(LL.PlaceAfter(l, index, order[at], item), RL.Insert(order, at + 1, |l.nodes|), RL.PlaceAfter(r, index, at, item))
  {
    PlaceAfterOutcome(l, order, r, index, at, item);
    InsertEnds(order, at + 1, |l.nodes|);
    PlaceAfterSplices(l, order, at, item);
    var a := LL.PlaceAfter(l, index, order[at], item);
    if a.Success? {
      RepresentsAfterInsert(l, order, r, at + 1, item, a.value, RL.PlaceAfter(r, index, at, item).value);
    }
  }

  /** The links `fzf_list_place_before` writes splice the new node in before `node`. */
  lemma PlaceBeforeSplices(l: LL.List, order: seq<nat>, at: nat, item: int)
    requires Shaped(l, order) && at < |order|
    ensures LL.NotSelfLinked(l.nodes, order[at])
    ensures l.head == Some(order[at]) <==> at == 0
    ensures var lk := LL.LinkBefore(l, l.nodes + [LL.Node(item, None, None)], order[at], |l.nodes|);
      SplicedIn(l.nodes, lk.0, order, at, item) && lk.1 == if at == 0 then Some(|l.nodes|) else First(order)
  {
    var n := |l.nodes|;
    var node := order[at];
    assert LinkedAt(l.nodes, order, at);
    if 0 < at { assert order[at - 1] != node; assert order[0] != node; }
    if at + 1 < |order| { assert order[at + 1] != node; }
    var nodes' := LL.LinkBefore(l, l.nodes + [LL.Node(item, None, None)], node, n).0;
    if 0 < at {
      var pp := order[at - 1];
      assert nodes'[pp] == l.nodes[pp].(next := Some(n));
    }
    assert nodes'[node] == l.nodes[node].(prev := Some(n));
  }

  /** Place-before on the node at index `at`, as written, crashes exactly when
      its sequence-level counterpart does; when it does not, the cursors agree
      and the new node is spliced in at index `at`. */
  lemma PlaceBeforeOutcome(l: LL.List, order: seq<nat>, r: RL.RankedList, index: RL.SizeT, at: nat, item: int)
    requires Represents(l, order, r) && LL.HasRoom(l) && at < |order|
    ensures RL.HasRoom(r)
    ensures LL.PlaceBefore(l, index, order[at], item).Success? <==> RL.PlaceBefore(r, index, at, item).Success?
    ensures LL.PlaceBefore(l, index, order[at], item).Failure? ==>
      LL.PlaceBefore(l, index, order[at], item).error == RL.PlaceBefore(r, index, at, item).error
    ensures LL.PlaceBefore(l, index, order[at], item).Success? ==>
      && SplicedIn(l.nodes, LL.PlaceBefore(l, index, order[at], item).value.nodes, order, at, item)
      && LL.PlaceBefore(l, index, order[at], item).value.tracked
         == TrackedPtr(RL.Insert(order, at, |l.nodes|), RL.PlaceBefore(r, index, at, item).value.tracked)
  {
    var n := |l.nodes|;
    var order' := RL.Insert(order, at, n);
    var lk := LL.LinkBefore(l, l.nodes + [LL.Node(item, None, None)], order[at], n);
    PlaceBeforeSplices(l, order, at, item);
    InsertEnds(order, at, n);
    assert l.tail == Last(order');
    if index == RL.TrackAtMinusOne(l.trackAt) {
      assert order'[RL.Shift(at, at)] == order[at];
    } else if index < l.trackAt {
      SpliceLinks(l.nodes, lk.0, order, at, item);
      ShiftCursorRefines(l, order, r, lk.0, at);
    } else {
      FollowRefines(order, n, at, r.tracked);
    }
  }

  /** `fzf_list_place_before` with `node` the node at index `at` implements the
      sequence-level placement before `at`, defect included. */
  lemma PlaceBeforeRefines(l: LL.List, order: seq<nat>, r: RL.RankedList, index: RL.SizeT, at: nat, item: int)
    requires Represents(l, order, r) && LL.HasRoom(l) && at < |order|
    ensures RL.HasRoom(r)
    ensures Simulates(LL.PlaceBefore(l, index, order[at], item), RL.Insert(order, at, |l.nodes|), RL.PlaceBefore(r, index, at, item))
  {
    PlaceBeforeOutcome(l, order, r, index, at, item);
    InsertEnds(order, at, |l.nodes|);
    PlaceBeforeSplices(l, order, at, item);
    var a := LL.PlaceBefore(l, index, order[at], item);
    if a.Success? {
      RepresentsAfterInsert(l, order, r, at, item, a.value, RL.PlaceBefore(r, index, at, item).value);
    }
  }

  /** The corrected place-before crashes exactly when its sequence-level
      counterpart does; when it does not, the cursors agree and the new node is
      spliced in at index `at`. */
  lemma PlaceBeforeFixedOutcome(l: LL.List, order: seq<nat>, r: RL.RankedList, index: RL.SizeT, at: nat, item: int)
    requires Represents(l, order, r) && LL.HasRoom(l) && at < |order|
    ensures RL.HasRoom(r)
    ensures LL.PlaceBeforeFixed(l, index, order[at], item).Success? <==> RL.PlaceBeforeFixed(r, index, at, item).Success?
    ensures LL.PlaceBeforeFixed(l, index, order[at], item).Failure? ==>
      LL.PlaceBeforeFixed(l, index, order[at], item).error == RL.PlaceBeforeFixed(r, index, at, item).error
    ensures LL.PlaceBeforeFixed(l, index, order[at], item).Success? ==>
      && SplicedIn(l.nodes, LL.PlaceBeforeFixed(l, index, order[at], item).value.nodes, order, at, item)
      && LL.PlaceBeforeFixed(l, index, order[at], item).value.tracked
         == TrackedPtr(RL.Insert(order, at, |l.nodes|), RL.PlaceBeforeFixed(r, index, at, item).value.tracked)
  {
    var n := |l.nodes|;
    var order' := RL.Insert(order, at, n);
    var lk := LL.LinkBefore(l, l.nodes + [LL.Node(item, None, None)], order[at], n);
    PlaceBeforeSplices(l, order, at, item);
    InsertEnds(order, at, n);
    assert l.tail == Last(order');
    if index == l.trackAt {
      assert order'[at] == n;
    } else if index < l.trackAt {
      SpliceLinks(l.nodes, lk.0, order, at, item);
      ShiftCursorRefines(l, order, r, lk.0, at);
    } else {
      FollowRefines(order, n, at, r.tracked);
    }
  }

  /** The corrected place-before on pointers implements the corrected
      sequence-level placement. */
  lemma PlaceBeforeFixedRefines(l: LL.List, order: seq<nat>, r: RL.RankedList, index: RL.SizeT, at: nat, item: int)
    requires Represents(l, order, r) && LL.HasRoom(l) && at < |order|
    ensures RL.HasRoom(r)
    ensures Simulates(LL.PlaceBeforeFixed(l, index, order[at], item), RL.Insert(order, at, |l.nodes|), RL.PlaceBeforeFixed(r, index, at, item))
  {
    PlaceBeforeFixedOutcome(l, order, r, index, at, item);
    InsertEnds(order, at, |l.nodes|);
    PlaceBeforeSplices(l, order, at, item);
    var a := LL.PlaceBeforeFixed(l, index, order[at], item);
    if a.Success? {
      RepresentsAfterInsert(l, order, r, at, item, a.value, RL.PlaceBeforeFixed(r, index, at, item).value);
    }
  }

  /** The cursor invariant on pointers: `_tracked_node` is the node of rank
      `track_at` once the list has that many nodes, and NULL before. */
  ghost predicate TracksRank(l: LL.List, order: seq<nat>) {
    l.tracked == if 1 <= l.trackAt <= |order| then Some(order[l.trackAt - 1]) else None
  }

  /** On a represented list the pointer-level and the sequence-level cursor
      invariants are the same statement. */
  lemma TracksRankIffCursorInvariant(l: LL.List, order: seq<nat>, r: RL.RankedList)
    requires Represents(l, order, r)
    ensures TracksRank(l, order) <==> RL.CursorInvariant(r)
  {
  }

  /** `fzf_list_append` keeps the tracked pointer on rank `track_at`. */
  lemma AppendKeepsRank(l: LL.List, order: seq<nat>, r: RL.RankedList, item: int)
    requires Represents(l, order, r) && LL.HasRoom(l) && TracksRank(l, order)
    ensures TracksRank(LL.Append(l, item).0, order + [|l.nodes|])
  {
    AppendRefines(l, order, r, item);
    TracksRankIffCursorInvariant(l, order, r);
    TracksRankIffCursorInvariant(LL.Append(l, item).0, order + [|l.nodes|], RL.Append(r, item));
  }

  /** `fzf_list_prepend` crashes exactly when `track_at` is 0, and otherwise
      keeps the tracked pointer on rank `track_at`. */
  lemma PrependKeepsRank(l: LL.List, order: seq<nat>, r: RL.RankedList, item: int)
    requires Represents(l, order, r) && LL.HasRoom(l) && TracksRank(l, order)
    ensures LL.Prepend(l, item).Success? <==> l.trackAt != 0
    ensures LL.Prepend(l, item).Success? ==> TracksRank(LL.Prepend(l, item).value, [|l.nodes|] + order)
  {
    PrependRefines(l, order, r, item);
    TracksRankIffCursorInvariant(l, order, r);
    if LL.Prepend(l, item).Success? {
      TracksRankIffCursorInvariant(LL.Prepend(l, item).value, [|l.nodes|] + order, RL.Prepend(r, item).value);
    }
  }

  /** `fzf_list_place_after`, called with the rank of the new node, keeps the
      tracked pointer on rank `track_at`. */
  lemma PlaceAfterKeepsRank(l: LL.List, order: seq<nat>, r: RL.RankedList, index: RL.SizeT, at: nat, item: int)
    requires Represents(l, order, r) && LL.HasRoom(l) && at < |order| && TracksRank(l, order) && index == at + 2
    ensures LL.PlaceAfter(l, index, order[at], item).Success?
    ensures TracksRank(LL.PlaceAfter(l, index, order[at], item).value, RL.Insert(order, at + 1, |l.nodes|))
  {
    PlaceAfterRefines(l, order, r, index, at, item);
    TracksRankIffCursorInvariant(l, order, r);
    var a := LL.PlaceAfter(l, index, order[at], item);
    TracksRankIffCursorInvariant(a.value, RL.Insert(order, at + 1, |l.nodes|), RL.PlaceAfter(r, index, at, item).value);
  }

  /** `fzf_list_place_before`, called with the rank of the new node, keeps the
      tracked pointer on rank `track_at` exactly when that rank is not the new node's. */
  lemma PlaceBeforeKeepsRankIff(l: LL.List, order: seq<nat>, r: RL.RankedList, index: RL.SizeT, at: nat, item: int)
    requires Represents(l, order, r) && LL.HasRoom(l) && at < |order| && TracksRank(l, order) && index == at + 1
    ensures LL.PlaceBefore(l, index, order[at], item).Success?
    ensures TracksRank(LL.PlaceBefore(l, index, order[at], item).value, RL.Insert(order, at, |l.nodes|)) <==> index != l.trackAt
  {
    PlaceBeforeRefines(l, order, r, index, at, item);
    TracksRankIffCursorInvariant(l, order, r);
    RL.PlaceBeforeLosesCursor(r, index, at, item);
    var a := LL.PlaceBefore(l, index, order[at], item);
    TracksRankIffCursorInvariant(a.value, RL.Insert(order, at, |l.nodes|), RL.PlaceBefore(r, index, at, item).value);
  }

  /** The corrected place-before keeps the tracked pointer on rank `track_at`. */
  lemma PlaceBeforeFixedKeepsRank(l: LL.List, order: seq<nat>, r: RL.RankedList, index: RL.SizeT, at: nat, item: int)
    requires Represents(l, order, r) && LL.HasRoom(l) && at < |order| && TracksRank(l, order) && index == at + 1
    ensures LL.PlaceBeforeFixed(l, index, order[at], item).Success?
    ensures TracksRank(LL.PlaceBeforeFixed(l, index, order[at], item).value, RL.Insert(order, at, |l.nodes|))
  {
    PlaceBeforeFixedRefines(l, order, r, index, at, item);
    TracksRankIffCursorInvariant(l, order, r);
    var a := LL.PlaceBeforeFixed(l, index, order[at], item);
    TracksRankIffCursorInvariant(a.value, RL.Insert(order, at, |l.nodes|), RL.PlaceBeforeFixed(r, index, at, item).value);
  }

  /** On pointers: a list created with `track_at` 1 holding one node (slot 0),
      then `fzf_list_place_before(list, 1, node 0, 9)`. The new node (slot 1)
      is the head, yet `_tracked_node` still points at slot 0, now second. */
  lemma ArenaPlaceBeforeCounterexample()
    ensures var l := LL.Append(LL.Create(1), 7).0;
      && l.tracked == Some(0) && TracksRank(l, [0])
      && LL.PlaceBefore(l, 1, 0, 9).Success?
      && LL.PlaceBefore(l, 1, 0, 9).value.head == Some(1)
      && LL.PlaceBefore(l, 1, 0, 9).value.nodes[1].next == Some(0)
      && LL.PlaceBefore(l, 1, 0, 9).value.tracked == Some(0)
      && !TracksRank(LL.PlaceBefore(l, 1, 0, 9).value, [1, 0])
  {
  }
}

=== FILE: ranked_list.dfy ===
/**
 * The ranked list of src/telescope.c, seen as a sequence.
 *
 * The list holds int items in order from head to tail and a cursor, `tracked`,
 * which is the index of the node `_tracked_node` points to (`None` for NULL).
 * The cursor invariant the O(1) updates are designed to keep: the tracked node
 * is the node of 1-based rank `track_at` once the list has that many nodes,
 * and NULL before.
 *
 * An insertion puts one new node at index `p`; every node that was at an index
 * `t >= p` moves to `t + 1`. A pointer keeps pointing at the same node, so an
 * untouched cursor moves with its node.
 */
module RankedList {
  import opened Wrappers

  /** `size_t` of the source. */
  const SIZE_MAX: int := 0xFFFF_FFFF_FFFF_FFFF
  type SizeT = x: int | 0 <= x <= SIZE_MAX

  /** A crash of the C code: following a NULL pointer, or a failed `assert`. */
  datatype Fault = NullDereference | AssertionFailure

  datatype RankedList = RankedList(items: seq<int>, trackAt: SizeT, tracked: Option<nat>)

  /** The cursor, when present, points at a node of the list, and the length
      fits the `size_t` counter `len`. */
  predicate WellFormed(l: RankedList) {
    && |l.items| <= SIZE_MAX
    && (l.tracked.Some? ==> l.tracked.value < |l.items|)
  }

  /** One more node still fits the `size_t` counter. */
  predicate HasRoom(l: RankedList) {
    |l.items| < SIZE_MAX
  }

  /** The tracked node is the node of rank `track_at` (index track_at - 1) when the
      list has at least `track_at` nodes, and absent otherwise. */
  predicate CursorInvariant(l: RankedList) {
    l.tracked == if 1 <= l.trackAt <= |l.items| then Some(l.trackAt - 1) else None
  }

  /** The index of the node formerly at `t` after a node is inserted at `p`. */
  function Shift(t: nat, p: nat): nat {
    if t >= p then t + 1 else t
  }

  /** The cursor after an insertion at `p` that does not retarget it. */
  function Follow(tracked: Option<nat>, p: nat): Option<nat> {
    match tracked
    case None => None
    case Some(t) => Some(Shift(t, p))
  }

  /** `node->prev` of the node at index `t`: NULL for the head. */
  function PrevOf(t: nat): Option<nat> {
    if t == 0 then None else Some(t - 1)
  }

  /** `items` with `x` inserted at index `p`. */
  function Insert<T>(items: seq<T>, p: nat, x: T): (r: seq<T>)
    requires p <= |items|
    ensures |r| == |items| + 1 && r[p] == x
    ensures forall t {:trigger r[Shift(t, p)]} :: 0 <= t < |items| ==> r[Shift(t, p)] == items[t]
  {
    items[..p] + [x] + items[p..]
  }

  /** The shared tail of the cursor rules of prepend and the placements, for an
      insertion at `p` into a list that now has `len` nodes: the tail becomes
      tracked when `len` just reached `track_at`; past it the tracked node's
      predecessor becomes tracked (NULL crashes); before it nothing changes. */
  function CursorShift(l: RankedList, p: nat, len: nat): Result<Option<nat>, Fault>
    requires 0 < len
  {
    if len == l.trackAt then Success(Some(len - 1))
    else if len > l.trackAt then
      match l.tracked
      case None => Failure(NullDereference)
      case Some(t) => Success(PrevOf(Shift(t, p)))
    else Success(Follow(l.tracked, p))
  }

  /** `fzf_list_create`. */
  function Create(trackAt: SizeT): (l: RankedList)
    ensures |l.items| == 0 && l.trackAt == trackAt && l.tracked == None
    ensures CursorInvariant(l)
  {
    RankedList([], trackAt, None)
  }

  /** `fzf_list_append`: the item goes to the end; the new node is tracked
      when the length becomes `track_at`. */
  function Append(l: RankedList, item: int): (r: RankedList)
    requires WellFormed(l) && HasRoom(l)
    ensures r.items == l.items + [item] && r.trackAt == l.trackAt
    ensures WellFormed(r)
    ensures CursorInvariant(l) ==> CursorInvariant(r)
  {
    var len := |l.items| + 1;
    RankedList(l.items + [item], l.trackAt, if len == l.trackAt then Some(len - 1) else l.tracked)
  }

  /** `fzf_list_prepend`. */
  function Prepend(l: RankedList, item: int): (r: Result<RankedList, Fault>)
    requires WellFormed(l) && HasRoom(l)
    ensures r.Success? ==> r.value.items == [item] + l.items && r.value.trackAt == l.trackAt && WellFormed(r.value)
    ensures CursorInvariant(l) ==> (r.Success? <==> l.trackAt != 0)
    ensures CursorInvariant(l) && r.Success? ==> CursorInvariant(r.value)
  {
    var items := Insert(l.items, 0, item);
    match CursorShift(l, 0, |items|)
    case Failure(e) => Failure(e)
    case Success(tracked) => Success(RankedList(items, l.trackAt, tracked))
  }

  /** `fzf_list_place_after` with `at` the index of `node`: the new node goes
      to index at + 1, and the cursor is updated from `index` alone. */
  function PlaceAfter(l: RankedList, index: SizeT, at: nat, item: int): (r: Result<RankedList, Fault>)
    requires WellFormed(l) && HasRoom(l) && at < |l.items|
    ensures r.Success? ==> r.value.items == Insert(l.items, at + 1, item) && r.value.trackAt == l.trackAt
    ensures r.Success? ==> WellFormed(r.value)
    ensures CursorInvariant(l) && index == at + 2 ==> r.Success? && CursorInvariant(r.value)
  {
    var p := at + 1;
    var items := Insert(l.items, p, item);
    if index == l.trackAt then Success(RankedList(items, l.trackAt, Some(p)))
    else if index < l.trackAt then
      match CursorShift(l, p, |items|)
      case Failure(e) => Failure(e)
      case Success(tracked) => Success(RankedList(items, l.trackAt, tracked))
    else Success(RankedList(items, l.trackAt, Follow(l.tracked, p)))
  }

  /** `list->track_at - 1` in `size_t`: 0 - 1 wraps to SIZE_MAX. */
  function TrackAtMinusOne(trackAt: SizeT): SizeT {
    if trackAt == 0 then SIZE_MAX else trackAt - 1
  }

  /** `fzf_list_place_before` as written, with `at` the index of `node`: the new
      node goes to index at and `node` moves to at + 1. The cursor survives for
      every `index` except `track_at` itself, see PlaceBeforeLosesCursor. */
  function PlaceBefore(l: RankedList, index: SizeT, at: nat, item: int): (r: Result<RankedList, Fault>)
    requires WellFormed(l) && HasRoom(l) && at < |l.items|
    ensures r.Success? ==> r.value.items == Insert(l.items, at, item) && r.value.trackAt == l.trackAt
    ensures r.Success? ==> WellFormed(r.value)
    ensures CursorInvariant(l) && index == at + 1 && index != l.trackAt ==> r.Success? && CursorInvariant(r.value)
  {
    var items := Insert(l.items, at, item);
    if index == TrackAtMinusOne(l.trackAt) then Success(RankedList(items, l.trackAt, Some(at + 1)))
    else if index < l.trackAt then
      match CursorShift(l, at, |items|)
      case Failure(e) => Failure(e)
      case Success(tracked) => Success(RankedList(items, l.trackAt, tracked))
    else Success(RankedList(items, l.trackAt, Follow(l.tracked, at)))
  }

  /** `fzf_list_place_before` with the cursor rule of `fzf_list_place_after`:
      an insertion at rank `track_at` makes the new node tracked. */
  function PlaceBeforeFixed(l: RankedList, index: SizeT, at: nat, item: int): (r: Result<RankedList, Fault>)
    requires WellFormed(l) && HasRoom(l) && at < |l.items|
    ensures r.Success? ==> r.value.items == Insert(l.items, at, item) && r.value.trackAt == l.trackAt
    ensures r.Success? ==> WellFormed(r.value)
    ensures CursorInvariant(l) && index == at + 1 ==> r.Success? && CursorInvariant(r.value)
  {
    var items := Insert(l.items, at, item);
    if index == l.trackAt then Success(RankedList(items, l.trackAt, Some(at)))
    else if index < l.trackAt then
      match CursorShift(l, at, |items|)
      case Failure(e) => Failure(e)
      case Success(tracked) => Success(RankedList(items, l.trackAt, tracked))
    else Success(RankedList(items, l.trackAt, Follow(l.tracked, at)))
  }

  /** With the index convention of the placements (the 1-based rank of the new
      node), `fzf_list_place_before` loses the cursor exactly when the new node
      lands on rank `track_at`: the cursor stays on `node`, one rank too far. */
  lemma PlaceBeforeLosesCursor(l: RankedList, index: SizeT, at: nat, item: int)
    requires WellFormed(l) && HasRoom(l) && at < |l.items| && CursorInvariant(l) && index == at + 1
    ensures PlaceBefore(l, index, at, item).Success?
    ensures CursorInvariant(PlaceBefore(l, index, at, item).value) <==> index != l.trackAt
    ensures index == l.trackAt ==> PlaceBefore(l, index, at, item).value.tracked == Some(l.trackAt)
  {
  }

  /** The smallest case: one tracked node, a new best item placed before it. */
  lemma PlaceBeforeCounterexample()
    ensures CursorInvariant(RankedList([7], 1, Some(0)))
    ensures PlaceBefore(RankedList([7], 1, Some(0)), 1, 0, 9) == Success(RankedList([9, 7], 1, Some(1)))
    ensures !CursorInvariant(RankedList([9, 7], 1, Some(1)))
  {
    assert Insert([7], 0, 9) == [9, 7];
  }

  /** The 0-based index convention does not rescue `fzf_list_place_before` either:
      with `index` the 0-based index of the new node, it fails when that node lands
      on rank `track_at`. */
  lemma PlaceBeforeZeroBasedIndexAlsoFails(l: RankedList, at: nat, item: int)
    requires WellFormed(l) && HasRoom(l) && at < |l.items| && CursorInvariant(l) && at + 1 == l.trackAt
    ensures PlaceBefore(l, at, at, item).Success?
    ensures !CursorInvariant(PlaceBefore(l, at, at, item).value)
  {
  }
}

=== FILE: scores.dfy ===
/**
 * Scores of the fzy matcher.
 *
 * The C code uses `double` scores whose weights are all multiples of 0.005, and
 * `-INFINITY` as the "no match" score. Here a score is an integer scaled by 1000,
 * extended with `NegInf` for `SCORE_MIN`; adding anything to `NegInf` keeps it
 * `NegInf` and `Max` is the maximum of the lattice with `NegInf` at the bottom.
 */
module Scores {

  datatype Score = NegInf | Fin(v: int)

  /** The weights of the scorer, scaled by 1000. */
  const SCORE_GAP_LEADING: int := -5
  const SCORE_GAP_TRAILING: int := -5
  const SCORE_GAP_INNER: int := -10
  const SCORE_MATCH_CONSECUTIVE: int := 1000
  const SCORE_MATCH_SLASH: int := 900
  const SCORE_MATCH_WORD: int := 800
  const SCORE_MATCH_CAPITAL: int := 700
  const SCORE_MATCH_DOT: int := 600

  /** The longest haystack the scorer accepts. */
  const MATCH_MAX_LEN: nat := 1024

  /** `s + k`, where `-INFINITY + k` stays `-INFINITY`. */
  function Add(s: Score, k: int): (r: Score)
    ensures r.Fin? <==> s.Fin?
    ensures r.Fin? ==> r.v - k == s.v
  {
    match s
    case NegInf => NegInf
    case Fin(x) => Fin(x + k)
  }

  /** `a <= b` in the extended order. */
  predicate AtMost(a: Score, b: Score) {
    a.NegInf? || (b.Fin? && a.v <= b.v)
  }

  /** The C macro `max(a, b)`, i.e. `a > b ? a : b`. */
  function Max(a: Score, b: Score): (r: Score)
    ensures r == a || r == b
    ensures AtMost(a, r) && AtMost(b, r)
    ensures r.Fin? <==> a.Fin? || b.Fin?
  {
    if a.Fin? && (b.NegInf? || a.v > b.v) then a else b
  }
}

=== FILE: subsequence.dfy ===
/**
 * Order-preserving embeddings of a needle into a haystack: one haystack
 * position per needle character, strictly increasing, each position holding a
 * character related to its needle character.
 */
module Subsequence {
  import opened Chars

  /**
   * How a needle character is compared with a haystack character: `Exact`
   * equality (used on case-folded copies), or `Accept`, the set that `has_match`
   * hands to `strpbrk` — the needle character itself and, unless the search is
   * case-sensitive, its upper-case form.
   */
  datatype CharRel = Exact | Accept(caseSensitive: bool)

  predicate Related(rel: CharRel, nch: char, c: char) {
    match rel
    case Exact => nch == c
    case Accept(cs) => c == nch || (!cs && c == ToUpper(nch))
  }

  ghost predicate IsEmbedding(needle: seq<char>, haystack: seq<char>, pos: seq<nat>, rel: CharRel) {
    && |pos| == |needle|
    && (forall k :: 0 <= k < |pos| ==> pos[k] < |haystack| && Related(rel, needle[k], haystack[pos[k]]))
    && (forall k :: 0 <= k < |pos| - 1 ==> pos[k] < pos[k + 1])
  }

  ghost predicate Embeds(needle: seq<char>, haystack: seq<char>, rel: CharRel) {
    exists pos :: IsEmbedding(needle, haystack, pos, rel)
  }

  /** An embedding never places a needle character before its own index. */
  lemma {:induction false} EmbeddingIsAboveDiagonal(needle: seq<char>, haystack: seq<char>, pos: seq<nat>, rel: CharRel, k: nat)
    requires IsEmbedding(needle, haystack, pos, rel)
    requires k < |pos|
    ensures k <= pos[k]
  {
    if k > 0 {
      EmbeddingIsAboveDiagonal(needle, haystack, pos, rel, k - 1);
    }
  }

  /** A needle longer than the haystack cannot be embedded in it. */
  lemma EmbedsNeedsRoom(needle: seq<char>, haystack: seq<char>, rel: CharRel)
    requires Embeds(needle, haystack, rel)
    ensures |needle| <= |haystack|
  {
    var pos :| IsEmbedding(needle, haystack, pos, rel);
    if |needle| > 0 {
      EmbeddingIsAboveDiagonal(needle, haystack, pos, rel, |pos| - 1);
    }
  }
}

=== FILE: wrappers.dfy ===
/** Option and Result datatypes shared by the scorer and the ranked list. */
module Wrappers {

  /** A value that may be absent; `None` plays the part of a C NULL pointer. */
  datatype Option<+T> = None | Some(value: T)

  /** The outcome of an operation that can fail with an error of type `E`. */
  datatype Result<+R, +E> = Success(value: R) | Failure(error: E)
}
